=== FILE: README.md ===
# trmnl-pipeline-php, modelled in Dafny

This project models the core of `trmnl-pipeline-php`. The library turns a web page or an image into a picture for an e-ink device: a pipeline runs stages in order; the browser stage renders HTML to a PNG screenshot; the image stage resizes, offsets, rotates, remaps, quantizes and re-encodes an image for one device. A stage can be configured from a device model, an enum whose data (size, colours, bit depth, rotation, offsets, MIME type, kind) comes from a catalogue of model records. A process-wide fake switch makes the stages write placeholder images instead.

Modules, one per source file or foreign dependency:

- `Wrappers`, `Exceptions`: `Option`, `Result` and `Outcome` for a call that can throw, and `ProcessingException`.
- `PhpValue`, `PhpArray`: PHP's mixed payload values and the `(string)` cast; PHP's insertion-ordered string-keyed arrays (`Dict`). Assigning an existing key keeps its position, and `array_filter` keeps order.
- `Paths`: PHP's `pathinfo` (dirname, basename, extension, filename), as far as the output path needs it.
- `ModelData`, `PaletteData`: the record types, the loaders (on an already decoded JSON document), and the lookups.
- `DeviceModel`: the `Model` enum, its getters, and the per-kind lists.
- `Host`: the file system as a class, including `tempnam`.
- `Imagick`: the image object the image stage drives.
- `FakeSwitch`: the fake flag.
- `ImageStage`, `BrowserStage`: the two stages, each a class whose methods are proved against pure specification functions (`Configured`, `Transformed`, `Run`).
- `TrmnlPipeline`: the pipeline class; `Fold` specifies `process()`.

The image stage applies the colour map before quantizing: `applyTransformations` calls `applyColormap` and then `quantize`. The model follows this order.

## Model

| member | source | states |
|---|---|---|
| DeviceModel.Model.DataName | src/Model.php:40-46 | the `og` case reads the `og_plus` record; every other case reads its own value |
| DeviceModel.Model.GetData | src/Model.php:40-46 | succeeds iff the record exists, returns that record, otherwise fails with "Model '<name>' not found in models data" |
| DeviceModel.Model.GetLabel | src/Model.php:48-51 | the record's label, failing exactly when the record is missing |
| DeviceModel.Model.GetDescription | src/Model.php:53-56 | the record's description, failing exactly when the record is missing |
| DeviceModel.Model.GetWidth | src/Model.php:58-61 | the record's width, failing exactly when the record is missing |
| DeviceModel.Model.GetHeight | src/Model.php:63-66 | the record's height, failing exactly when the record is missing |
| DeviceModel.Model.GetColors | src/Model.php:68-71 | the record's colour count, failing exactly when the record is missing |
| DeviceModel.Model.GetBitDepth | src/Model.php:73-76 | the record's bit depth, failing exactly when the record is missing |
| DeviceModel.Model.GetScaleFactor | src/Model.php:78-81 | the record's scale factor, failing exactly when the record is missing |
| DeviceModel.Model.GetRotation | src/Model.php:83-86 | the record's rotation, failing exactly when the record is missing |
| DeviceModel.Model.GetMimeType | src/Model.php:88-91 | the record's MIME type, failing exactly when the record is missing |
| DeviceModel.Model.GetOffsetX | src/Model.php:93-96 | the record's x offset, failing exactly when the record is missing |
| DeviceModel.Model.GetOffsetY | src/Model.php:98-101 | the record's y offset, failing exactly when the record is missing |
| DeviceModel.Model.GetKind | src/Model.php:103-106 | the record's kind, failing exactly when the record is missing |
| DeviceModel.Cases | src/Model.php:12-33 | the 22 enum cases, pairwise distinct |
| DeviceModel.CasesComplete | src/Model.php:12-33 | every case is among `cases()` |
| DeviceModel.GetByKind | src/Model.php:128-137 | a case is listed iff a record is named by its value and has the kind; listed in declaration order, without repeats |
| DeviceModel.GetTrmnlModels | src/Model.php:146-149 | exactly the cases whose record has kind "trmnl" |
| DeviceModel.GetKindleModels | src/Model.php:158-161 | exactly the cases whose record has kind "kindle" |
| DeviceModel.GetByodModels | src/Model.php:170-173 | exactly the cases whose record has kind "byod" |
| DeviceModel.OgNotListedByKind | src/Model.php:40-46 | without an `og` record, `og` reports `og_plus`'s kind but is never listed by kind, while `og_plus` is |
| ModelData.FromRaw | src/Data/ModelData.php:70-85 | the record keeps the entry's name |
| ModelData.FromRawFieldByField | src/Data/ModelData.php:71-84 | for any named entry, each field is the entry's value when given and otherwise the default a name-only entry gets, independently of the other fields |
| ModelData.FromRawKeepsPresentFields | src/Data/ModelData.php:70-85 | an entry that gives every field yields exactly those fields |
| ModelData.FromRawDefaults | src/Data/ModelData.php:71-84 | an entry with only a name gets "", 0, scale 1.0 and "image/png" as defaults |
| ModelData.Load | src/Data/ModelData.php:56-88 | a non-array document, a missing `data` array and an unnamed entry each fail with their message; otherwise the catalogue is the entries assigned in order |
| ModelData.LoadFromJson | src/Data/ModelData.php:64-88 | the loop builds exactly `Load`'s catalogue, failing at the first unnamed entry |
| ModelData.LoadStep | src/Data/ModelData.php:65-85 | one more entry is one more keyed assignment |
| ModelData.LoadKeyedByName | src/Data/ModelData.php:64-88 | with every entry named, loading succeeds; the names present are exactly the entries' names, and each record carries its key as name |
| ModelData.LoadLastDuplicateWins | src/Data/ModelData.php:70 | of entries sharing a name, the last one is kept |
| ModelData.LoadNamesInFirstOccurrenceOrder | src/Data/ModelData.php:64-88 | the names come out in order of their first occurrence |
| ModelData.GetByName | src/Data/ModelData.php:96-105 | succeeds iff the name is present, with its record; otherwise fails with the not-found message |
| ModelData.GetByNameAfterLoad | src/Data/ModelData.php:96-105 | a name is found after loading iff some entry had it, and the record found carries that name |
| ModelData.GetByKind | src/Data/ModelData.php:114-122 | exactly the records of that kind, unchanged, keys in their original order |
| ModelData.GetAllNames | src/Data/ModelData.php:131-136 | every name once, and only names present |
| PaletteData.FromRaw | src/Data/PaletteData.php:63-69 | the record keeps the entry's id |
| PaletteData.FromRawFields | src/Data/PaletteData.php:63-69 | an entry that gives every field yields exactly those fields; an entry with only an id gets "", 0, no colours and "" |
| PaletteData.FromRawFieldByField | src/Data/PaletteData.php:64-68 | for any entry with an id, each field is the entry's value when given and otherwise the default an id-only entry gets, independently of the other fields |
| PaletteData.Load | src/Data/PaletteData.php:49-72 | the same error cases as for models; otherwise the entries assigned by id, in order |
| PaletteData.LoadFromJson | src/Data/PaletteData.php:57-72 | the loop builds exactly `Load`'s catalogue, failing at the first entry without an id |
| PaletteData.LoadStep | src/Data/PaletteData.php:58-69 | one more entry is one more keyed assignment |
| PaletteData.LoadKeyedById | src/Data/PaletteData.php:57-72 | with every entry identified, loading succeeds; the ids present are exactly the entries' ids, and each record carries its key |
| PaletteData.LoadLastDuplicateWins | src/Data/PaletteData.php:63 | of entries sharing an id, the last one is kept |
| PaletteData.LoadIdsInFirstOccurrenceOrder | src/Data/PaletteData.php:57-72 | ids come out in order of first occurrence |
| PaletteData.GetById | src/Data/PaletteData.php:75-84 | a palette iff the id is present (null otherwise), and it is that id's record |
| PaletteData.GetByIdAfterLoad | src/Data/PaletteData.php:75-84 | an id is found after loading iff some entry had it, and the palette found carries that id |
| PaletteData.GetAllIds | src/Data/PaletteData.php:93-98 | every id once, and only ids present |
| Paths.Dirname | src/Stages/ImageStage.php:308-310 | no dirname only for the empty path; otherwise a non-empty proper prefix without trailing slash, or "." or "/" |
| Paths.Basename | src/Stages/ImageStage.php:308 | the last component, without any slash |
| Paths.Extension | src/Stages/ImageStage.php:309 | present iff the basename has a dot; contains neither dot nor slash |
| Paths.Filename | src/Stages/ImageStage.php:312 | the basename without its extension: filename "." extension is the basename |
| Paths.PathinfoOfSimplePath | src/Stages/ImageStage.php:308-312 | `d/n.e` splits into dirname d, basename n.e, extension e, filename n |
| Paths.PathinfoOfBareName | src/Stages/ImageStage.php:308-310 | a bare name has dirname "." and is its own basename |
| Paths.SplitAtLastSlash | src/Stages/ImageStage.php:308 | dropping the last component of `p + f` leaves p |
| ImageStage.ImageStage.constructor | src/Stages/ImageStage.php:42-63 | every setting starts unset |
| ImageStage.ImageStage.SetFormat | src/Stages/ImageStage.php:68-73 | sets the format, nothing else |
| ImageStage.ImageStage.GetFormat | src/Stages/ImageStage.php:78-81 | the format as currently set, null when unset |
| ImageStage.ImageStage.SetWidth | src/Stages/ImageStage.php:86-91 | sets the width, nothing else |
| ImageStage.ImageStage.SetHeight | src/Stages/ImageStage.php:96-101 | sets the height, nothing else |
| ImageStage.ImageStage.SetColors | src/Stages/ImageStage.php:106-111 | sets the colour count, nothing else |
| ImageStage.ImageStage.SetBitDepth | src/Stages/ImageStage.php:116-121 | sets the bit depth, nothing else |
| ImageStage.ImageStage.SetRotation | src/Stages/ImageStage.php:126-131 | sets the rotation, nothing else |
| ImageStage.ImageStage.SetOffsetX | src/Stages/ImageStage.php:136-141 | sets the x offset, nothing else |
| ImageStage.ImageStage.SetOffsetY | src/Stages/ImageStage.php:146-151 | sets the y offset, nothing else |
| ImageStage.ImageStage.SetOutputPath | src/Stages/ImageStage.php:156-161 | sets the output path, nothing else |
| ImageStage.ImageStage.SetColormap | src/Stages/ImageStage.php:168-173 | sets the colour map, nothing else |
| ImageStage.FormatFromMimeType | src/Stages/ImageStage.php:378-384 | "bmp" iff the MIME type is "image/bmp" or "bmp", otherwise "png" |
| ImageStage.Configured | src/Stages/ImageStage.php:178-208 | a set field is kept; an unset one takes the device's value (width 800 when the device's is not positive; format from the MIME type); output path and colour map are untouched |
| ImageStage.ConfiguredIsFinal | src/Stages/ImageStage.php:178-208 | after configuration every device field is set, so configuring again from any device changes nothing |
| ImageStage.ImageStage.ConfigureFromModel | src/Stages/ImageStage.php:178-208 | succeeds iff the device has a record, then the settings are `Configured`; on failure the stage is unchanged and the lookup's exception escapes |
| ImageStage.ImageStage.FillFrom | src/Stages/ImageStage.php:182-205 | the settings become `Configured` from the record |
| ImageStage.ExtractImagePath | src/Stages/ImageStage.php:247-260 | a string payload is the path; a set `image_path` entry is cast to string; anything else gives "" |
| ImageStage.PayloadFormsAgree | src/Stages/ImageStage.php:247-260 | a bare path and `['image_path' => path]` name the same file; a null entry names none |
| ImageStage.HalfRounded | src/Stages/ImageStage.php:336-337 | half of n, exact when even, rounded away from zero when odd |
| ImageStage.HalfRoundedIsOdd | src/Stages/ImageStage.php:336-337 | the rounding is symmetric around zero |
| ImageStage.CenteredImageInsideCanvas | src/Stages/ImageStage.php:320-347 | an image no larger than the canvas, placed at the centre offset, lies inside it, with the odd pixel on the leading side |
| ImageStage.Centered | src/Stages/ImageStage.php:320-347 | the result has the canvas size and keeps format, depth, options and strip flag; an image already of the canvas size is unchanged; otherwise the picture is drawn on white at (round((cw - w) / 2), round((ch - h) / 2)) |
| ImageStage.ImageStage.CreateCanvasWithCenteredImage | src/Stages/ImageStage.php:320-347 | the image becomes `Centered` on the canvas |
| ImageStage.AfterResize | src/Stages/ImageStage.php:389-416 | the result always has the target size (width/height or 800x480); an image of that size is left untouched |
| ImageStage.ResizeIsIdempotent | src/Stages/ImageStage.php:389-416 | resizing twice is resizing once |
| ImageStage.ResizePlacesFitInside | src/Stages/ImageStage.php:389-416 | when the best fit is smaller, the resampled picture sits on a white canvas of the target size at the rounded centre offsets, inside it, with the leftover split evenly (odd pixel on the leading side) |
| ImageStage.ImageStage.Resize | src/Stages/ImageStage.php:389-416 | the image becomes `AfterResize` |
| ImageStage.AfterOffset | src/Stages/ImageStage.php:354-373 | the size is kept; the image is unchanged iff both offsets are explicitly 0, otherwise drawn on white at (offsetX ?? 0, offsetY ?? 0) |
| ImageStage.ImageStage.Offset | src/Stages/ImageStage.php:354-373 | the image becomes `AfterOffset` |
| ImageStage.AfterRotate | src/Stages/ImageStage.php:421-426 | skipped only for an explicit 0; otherwise rotated on white, with a half turn keeping the size and a quarter turn swapping it |
| ImageStage.ImageStage.Rotate | src/Stages/ImageStage.php:421-426 | the image becomes `AfterRotate` |
| ImageStage.ColormapFor | src/Stages/ImageStage.php:468-502 | a table only for png at bit depth at most 2: the explicit one, else four grays at depth 2, else black and white |
| ImageStage.DefaultColormapFitsDepth | src/Stages/ImageStage.php:494-502 | the default table has 2^depth entries running from black to white |
| ImageStage.AfterColormap | src/Stages/ImageStage.php:468-487 | without a table the image is unchanged; with one the picture is remapped onto it; size, format, depth and options are kept |
| ImageStage.ImageStage.ApplyColormap | src/Stages/ImageStage.php:468-487 | the image becomes `AfterColormap`: remapped onto `ColormapFor`, dithering Floyd-Steinberg |
| ImageStage.ImageStage.SetImageColormap | src/Stages/ImageStage.php:513-529 | remaps the picture onto the table, nothing else |
| ImageStage.PaletteRow | src/Stages/ImageStage.php:515-525 | the palette row holds the table's colours in order |
| ImageStage.AfterQuantize | src/Stages/ImageStage.php:451-461 | dithering set to Floyd-Steinberg with other options kept, picture quantized to `colors ?? 2`, size and format kept |
| ImageStage.ImageStage.Quantize | src/Stages/ImageStage.php:451-461 | the image becomes `AfterQuantize`: quantized to `colors ?? 2` |
| ImageStage.OutputEncoding | src/Stages/ImageStage.php:290-297 | "BMP3" iff the format is "bmp", "BMP" iff it is "image/bmp", "PNG" otherwise |
| ImageStage.Transformed | src/Stages/ImageStage.php:267-301 | whatever the input, the result has the final size, the configured depth (default 1) and encoding, is stripped, and has dithering on |
| ImageStage.FinalSizeOfRightAngles | src/Stages/ImageStage.php:421-426 | the final size is the target size, kept by a half or full turn and swapped by a quarter turn |
| ImageStage.DefaultDeviceOnExactImage | src/Stages/ImageStage.php:267-301 | a 1-bit png device with no offset or rotation leaves an exact-size image's geometry alone: remapped to black and white, then quantized |
| ImageStage.ImageStage.ApplyTransformations | src/Stages/ImageStage.php:267-301 | the image becomes `Transformed` |
| ImageStage.OutputPathFor | src/Stages/ImageStage.php:439-446 | the explicit output path when set, otherwise the generated one |
| ImageStage.GeneratedOutputPath | src/Stages/ImageStage.php:306-313 | `<dirname>/<filename>_processed.` followed by the format when truthy, else the input's extension, else "png" |
| ImageStage.OutputPathBesideInput | src/Stages/ImageStage.php:306-313 | `d/n.e` is written to `d/n_processed.<format or e>` |
| ImageStage.OutputPathOfBareName | src/Stages/ImageStage.php:306-313 | a bare name without extension and no format goes to `./name_processed.png` |
| ImageStage.ImageStage.WriteImage | src/Stages/ImageStage.php:439-446 | writes the encoded image to `OutputPathFor` and returns that path |
| ImageStage.MockImage | src/Stages/ImageStage.php:534-565 | a white image of (width ?? 800) x (height ?? 480), BMP exactly for the "bmp" format, else PNG |
| ImageStage.ImageStage.CreateMockProcessedImage | src/Stages/ImageStage.php:534-565 | writes a white image of the target size (BMP for "bmp", else PNG) to `OutputPathFor` and returns that path |
| ImageStage.Run | src/Stages/ImageStage.php:218-242 | a failure leaves the disk unchanged; a success needs an existing input and writes only the output path, which it returns |
| ImageStage.RunRejectsMissingFile | src/Stages/ImageStage.php:222-224 | a missing input fails with "Invalid or missing image file: <path>", in fake mode too, and writes nothing |
| ImageStage.RunFake | src/Stages/ImageStage.php:226-228 | in fake mode an existing input yields the output path holding a placeholder of the target size |
| ImageStage.RunWritesFinalSize | src/Stages/ImageStage.php:230-241 | a decodable input is written at the final size to the output path; an undecodable one fails with "Image processing failed: " and the decoder's message, writing nothing |
| ImageStage.ImageStage.Invoke | src/Stages/ImageStage.php:218-242 | result and disk are those of `Run` on the stage's settings and the fake flag |
| BrowserStage.BrowserStage.constructor | src/Stages/BrowserStage.php:25-36 | no HTML, no dimensions, model dimensions, no options, the given instance |
| BrowserStage.BrowserStage.SetHtml | src/Stages/BrowserStage.php:41-46 | sets the HTML, nothing else |
| BrowserStage.BrowserStage.SetWidth | src/Stages/BrowserStage.php:51-56 | sets the width, nothing else |
| BrowserStage.BrowserStage.SetHeight | src/Stages/BrowserStage.php:61-66 | sets the height, nothing else |
| BrowserStage.BrowserStage.SetBrowsershotOption | src/Stages/BrowserStage.php:71-76 | assigns the option by name, nothing else |
| BrowserStage.OptionOverwrite | src/Stages/BrowserStage.php:71-76 | setting an option twice keeps the later value in the first position; other options are untouched |
| BrowserStage.BrowserStage.UseDefaultDimensions | src/Stages/BrowserStage.php:81-86 | switches to default dimensions, nothing else |
| BrowserStage.FillFromModel | src/Stages/BrowserStage.php:96-101 | a set dimension is kept; an unset one comes from the device, whose failure escapes |
| BrowserStage.Configured | src/Stages/BrowserStage.php:91-113 | fails iff model dimensions are wanted, one is unset and the device has no record; set dimensions are kept; unset ones become the device's or 800/480 |
| BrowserStage.ConfiguredIsFinal | src/Stages/BrowserStage.php:91-113 | once configured, configuring again from any device changes nothing |
| BrowserStage.BrowserStage.ConfigureFromModel | src/Stages/BrowserStage.php:91-113 | passes iff `Configured` succeeds, then holds its settings; otherwise the stage is unchanged and the exception escapes |
| BrowserStage.Browsershot.SetOption | src/Stages/BrowserStage.php:153 | appends one option call |
| BrowserStage.Started | src/Stages/BrowserStage.php:137-145 | the HTML is set; a given instance keeps its other settings, a fresh one has no viewport, type or options |
| BrowserStage.Shot | src/Stages/BrowserStage.php:137-154 | the browser shows the HTML with viewport (width ?? 800, height ?? 480), PNG screenshots, then every option in insertion order |
| BrowserStage.BrowserStage.ApplyOptions | src/Stages/BrowserStage.php:152-154 | appends every option, in insertion order |
| BrowserStage.Run | src/Stages/BrowserStage.php:123-171 | without HTML it fails and leaves the disk alone; otherwise exactly one temp name is taken and no file is removed; a reported path exists |
| BrowserStage.RunRequiresHtml | src/Stages/BrowserStage.php:125-127 | null or empty HTML fails with the no-HTML message, in fake mode too, and the disk is untouched |
| BrowserStage.RunFake | src/Stages/BrowserStage.php:129-131 | in fake mode the result is the next `browsershot_fake_` temp name plus ".png", holding an 800x480 white PNG |
| BrowserStage.RunReportsSaveOutcome | src/Stages/BrowserStage.php:135-162 | a written screenshot is returned as the temp name plus ".png" holding it; a save that writes nothing fails with "Browser rendering failed: Failed to generate browser screenshot" unless that file already existed |
| BrowserStage.RunReportsExistingScreenshot | src/Stages/BrowserStage.php:133-170 | a reported screenshot is the `browsershot_` temp name plus ".png" and exists; a browser exception surfaces as "Browser rendering failed: " plus its message |
| BrowserStage.BrowserStage.Invoke | src/Stages/BrowserStage.php:123-171 | result and disk are those of `Run` on the stage's settings and the fake flag |
| BrowserStage.BrowserStage.CreateMockImage | src/Stages/BrowserStage.php:176-195 | takes the next temp name, writes an 800x480 white PNG at it plus ".png", returns that path |
| Host.FileSystem.TempNam | src/Stages/BrowserStage.php:135 | a new empty file with the next temp name in the temp directory |
| FakeSwitch.FakeMode.constructor | src/TrmnlPipeline.php:19 | fake mode starts off, and `IsFake` reports it off |
| FakeSwitch.FakeMode.Fake | src/TrmnlPipeline.php:82-85 | turns fake mode on, and `IsFake` then reports it on |
| FakeSwitch.FakeMode.Restore | src/TrmnlPipeline.php:90-93 | turns fake mode off, and `IsFake` then reports it off |
| FakeSwitch.FakeMode.IsFake | src/TrmnlPipeline.php:98-101 | whether fake mode is on |
| TrmnlPipeline.TrmnlPipeline.constructor | src/TrmnlPipeline.php:15-24 | no model, no stages |
| TrmnlPipeline.TrmnlPipeline.SetModel | src/TrmnlPipeline.php:29-34 | sets the model; stages piped earlier are not touched |
| TrmnlPipeline.TrmnlPipeline.Pipe | src/TrmnlPipeline.php:47-57 | with a model set, the library's stages are configured from it first; if that throws nothing is appended, otherwise the stage is appended after the earlier ones |
| TrmnlPipeline.TrmnlPipeline.GetModel | src/TrmnlPipeline.php:39-42 | the model currently set, if any |
| TrmnlPipeline.Step | src/TrmnlPipeline.php:54 | one stage run keeps the temp directory, and the library's image and browser stages remove no file; a user stage, modelled as a function of the payload, leaves the disk alone |
| TrmnlPipeline.Fold | src/TrmnlPipeline.php:66-69 | the empty pipeline returns the payload and leaves the disk alone |
| TrmnlPipeline.FoldKeepsFiles | src/TrmnlPipeline.php:66-69 | with user stages modelled as functions of the payload, running the stages removes no file and keeps the temp directory; a pipeline of user stages only leaves the disk alone |
| TrmnlPipeline.RunStage | src/TrmnlPipeline.php:54 | invoking a piped stage gives the result and disk `Step` describes for the stage as it stands |
| TrmnlPipeline.Wrapped | src/TrmnlPipeline.php:66-77 | a result passes through; an exception is re-thrown as "Pipeline processing failed: " plus its message |
| TrmnlPipeline.TrmnlPipeline.Process | src/TrmnlPipeline.php:66-77 | result and disk are those of `Fold` over the piped stages, starting from null, wrapped |
| TrmnlPipeline.FoldAppend | src/TrmnlPipeline.php:54 | running two lists of stages in turn is running their concatenation, and the second never runs after a failure |
| TrmnlPipeline.FoldSnoc | src/TrmnlPipeline.php:54 | piping one more stage adds one step, run on the earlier result |
| TrmnlPipeline.TwoInvokablesCompose | src/TrmnlPipeline.php:66-69 | from null, test closures for `($p ?? 5) * 2` then `$p + 1` yield 11 and touch no file |
| TrmnlPipeline.FailingStageIsWrapped | src/TrmnlPipeline.php:66-77 | a failing first stage is reported with the pipeline prefix, and later stages never run |

## Left out

- File and JSON I/O: the loaders take an already decoded document, so "file not found", "failed to read" and "invalid JSON" are not modelled.
- PHP's integer-like string keys: PHP turns a key such as "123" into an integer key. The model keeps every key a string.
- Model.getPaletteIds: not modelled. It reads a `paletteIds` property that `ModelData` does not declare, which yields null, and returns that from a function declared to return an array, so every call ends in a `TypeError`.
- ModelData.FromRaw: the raw entry is typed, so the `(int)`/`(float)` casts of string-valued JSON fields (such as `"width": "800"`) are not modelled, and neither is the `TypeError` that strict types raise for a non-string name, label, MIME type or other string field.
- PaletteData.FromRaw: likewise, the `(int)` cast of `grays` from a string and the `TypeError` for non-string id, name, framework class or non-array colours are not modelled.
- Imagick's pixel work: pictures are terms, not pixels. The library computes the best-fit size and the bounding box of a rotation that is not a multiple of 90 degrees; both are parameters (`Backend`).
- Imagick errors other than an undecodable input: failures of remap, quantize, write, and bad `ImagickPixel` colours are not modelled.
- `setFormat` and `setImageFormat` are one `format` field.
- `scaleFactor`: a PHP float, modelled as `real`.
- The headless browser: what `save` does is a parameter (`Renderer`). Options given in dot notation are not interpreted.
- ImageStage.MockImage: the placeholder is described for every target size, but GD's `imagecreate` throws a `ValueError` (a PHP `Error`, which no `catch (\Exception)` stops) for a width or height of 0 or less, reachable in fake mode through `width(0)`, a negative height, or a device record whose height is 0 or missing; that failure, and any other `imagecreate`/`imagecolorallocate` failure, is not modelled.
- ImageStage.RunFake: for the same reason, success in fake mode is promised for every target size; the `ValueError` for a non-positive width or height is not modelled.
- ImageStage.ImageStage.CreateMockProcessedImage: writes the placeholder for every target size; GD's `ValueError` for a non-positive width or height, and other GD failures, are not modelled.
- BrowserStage.BrowserStage.CreateMockImage: GD failures (`imagecreate`, `imagecolorallocate`) are not modelled, because GD is foreign.
- Host.FileSystem.TempNam: returns a name derived from a counter. It does not model the uniqueness or random naming of `tempnam`.
- `sys_get_temp_dir()`: a constant directory of the file system.
- BrowserStage.Started: a given Browsershot instance is modelled as a value that the clone copies and `html()` updates; the library's own cloning and state are not modelled.
- ImageStage.RunRejectsMissingFile: the disk holds files only; `file_exists` also accepts directories, which are not modelled, and the empty path is simply absent.
- Fluent `return $this` and the enum's `from`/`tryFrom` are not modelled.
- TrmnlPipeline.Step: a user-defined stage (any other `StageInterface` implementation or closure) is modelled as a side-effect-free partial function of the payload; whatever it does to the disk, or to other state, is not modelled, so the "removes no file" and "leaves the disk alone" statements of `Step` and `FoldKeepsFiles` hold for the library's image and browser stages only.
- TrmnlPipeline.TrmnlPipeline.Pipe: only the library's two stages have `configureFromModel`. A user-defined stage class with such a method is treated as a plain invokable.
- TrmnlPipeline.TrmnlPipeline.Process: every stage failure is an exception it catches. PHP `Error`s, which `catch (\Exception)` lets through, are not distinguished, and neither are exception codes or previous exceptions.
- The static fake flag is one shared `FakeMode` object passed to the stages.

=== FILE: browser_stage.dfy ===
/**
 * The browser stage (src/Stages/BrowserStage.php): renders the HTML set on
 * the stage to a PNG screenshot in a temporary file, with a viewport taken
 * from explicit settings, from the device record, or from the defaults.
 *
 * The headless browser is foreign: a `Browsershot` value records how the
 * stage configured it, and a `Renderer` says what `save` did with it.
 */
module BrowserStage {
  import opened Wrappers
  import opened Exceptions
  import opened PhpValue
  import opened PhpArray
  import opened Host
  import opened FakeSwitch
  import MD = ModelData
  import DM = DeviceModel

  const DefaultWidth := 800
  const DefaultHeight := 480

  const NoHtmlMessage := "No HTML content provided for browser rendering. Use html() method to set HTML content."
  const RenderingFailedMessage := "Browser rendering failed: "
  const NotWrittenMessage := "Failed to generate browser screenshot"

  /** The browser as configured: page, viewport, screenshot type and the `setOption` calls made on it, in order. */
  datatype Browsershot = Browsershot(
    html: string,
    windowSize: Option<(int, int)>,
    screenshotType: Option<string>,
    optionCalls: seq<(string, Value)>)
  {
    function SetOption(name: string, value: Value): (b: Browsershot)
      ensures b.optionCalls == optionCalls + [(name, value)]
    {
      this.(optionCalls := optionCalls + [(name, value)])
    }
  }

  /** What `save($path)` did: wrote a PNG of the given size, returned without writing, or threw. */
  datatype SaveOutcome = Saved(width: int, height: int) | NothingWritten | Threw(message: string)

  /** The headless browser's behaviour, which is not modelled. */
  datatype Renderer = Renderer(save: Browsershot -> SaveOutcome)

  /** The stage's settings; `None` is a field still `null`. */
  datatype Settings = Settings(
    html: Option<string>,
    width: Option<int>,
    height: Option<int>,
    useDefaultDimensions: bool,
    options: Dict<Value>)

  /** A nullable dimension filled from the model only while it is `null`; the model is consulted only then. */
  function FillFromModel(field: Option<int>, fromModel: Result<int, ProcessingException>): (r: Result<Option<int>, ProcessingException>)
    ensures field.Some? ==> r == Success(field)
    ensures field.None? && fromModel.Success? ==> r == Success(Some(fromModel.value))
    ensures field.None? && fromModel.Failure? ==> r == Failure(fromModel.error)
  {
    if field.Some? then Success(field)
    else
      match fromModel
      case Success(v) => Success(Some(v))
      case Failure(e) => Failure(e)
  }

  /**
   * `configureFromModel`: with model dimensions, an unset width or height is
   * taken from the device (which fails only when the device has no record);
   * with default dimensions, an unset one becomes 800 or 480 and the device
   * is not consulted. A dimension already set is never changed.
   */
  function Configured(s: Settings, m: DM.Model, c: MD.Catalog): (r: Result<Settings, ProcessingException>)
    ensures r.Failure? <==> !s.useDefaultDimensions && (s.width.None? || s.height.None?) && m.DataName() !in c.entries
    ensures r.Success? ==> r.value.html == s.html && r.value.useDefaultDimensions == s.useDefaultDimensions && r.value.options == s.options
    ensures r.Success? && s.width.Some? ==> r.value.width == s.width
    ensures r.Success? && s.height.Some? ==> r.value.height == s.height
    ensures r.Success? && s.width.None? ==>
      r.value.width == Some(if s.useDefaultDimensions then DefaultWidth else m.GetWidth(c).value)
    ensures r.Success? && s.height.None? ==>
      r.value.height == Some(if s.useDefaultDimensions then DefaultHeight else m.GetHeight(c).value)
  {
    if !s.useDefaultDimensions then
      var w :- FillFromModel(s.width, m.GetWidth(c));
      var h :- FillFromModel(s.height, m.GetHeight(c));
      Success(s.(width := w, height := h))
    else
      Success(s.(width := Some(s.width.GetOr(DefaultWidth)), height := Some(s.height.GetOr(DefaultHeight))))
  }

  /** Once both dimensions are set, configuring again, from any device, changes nothing and cannot fail. */
  lemma ConfiguredIsFinal(s: Settings, m: DM.Model, m2: DM.Model, c: MD.Catalog)
    requires Configured(s, m, c).Success?
    ensures Configured(Configured(s, m, c).value, m2, c) == Configured(s, m, c)
  {
  }

  /** Setting an option twice keeps only the later value, at the position of the first setting; other options are untouched. */
  lemma OptionOverwrite(options: Dict<Value>, name: string, first: Value, second: Value)
    requires options.Valid()
    ensures options.Assign(name, first).Assign(name, second) == options.Assign(name, second)
    ensures forall k :: k != name && k in options.entries ==> options.Assign(name, second).entries[k] == options.entries[k]
  {
  }

  /** The browser before the stage's own settings: a clone of the given instance, or a fresh one, showing the HTML. */
  function Started(instance: Option<Browsershot>, html: string): (b: Browsershot)
    ensures b.html == html
    ensures instance.Some? ==> b == instance.value.(html := html)
    ensures instance.None? ==> b.windowSize.None? && b.screenshotType.None? && b.optionCalls == []
  {
    match instance
    case Some(b) => b.(html := html)
    case None => Browsershot(html, None, None, [])
  }

  /** The browser `__invoke` saves: viewport (width ?? 800, height ?? 480), PNG screenshots, then every option in insertion order. */
  function Shot(s: Settings, instance: Option<Browsershot>, html: string): (b: Browsershot)
    requires s.options.Valid()
    ensures b.html == html
    ensures b.windowSize == Some((s.width.GetOr(DefaultWidth), s.height.GetOr(DefaultHeight)))
    ensures b.screenshotType == Some("png")
    ensures b.optionCalls == Started(instance, html).optionCalls + s.options.Pairs()
  {
    Started(instance, html).(
      windowSize := Some((s.width.GetOr(DefaultWidth), s.height.GetOr(DefaultHeight))),
      screenshotType := Some("png"),
      optionCalls := Started(instance, html).optionCalls + s.options.Pairs())
  }

  /** `__invoke`: the result (screenshot path or exception) and the disk afterwards. */
  function Run(s: Settings, instance: Option<Browsershot>, w: World, fake: bool, renderer: Renderer): (out: (Result<string, ProcessingException>, World))
    requires s.options.Valid()
    ensures s.html.None? || s.html == Some("") ==> out == (Failure(ProcessingException(NoHtmlMessage)), w)
    ensures s.html.Some? && s.html.value != "" ==>
      && out.1.tempDir == w.tempDir && out.1.tempCount == w.tempCount + 1
      && w.files.Keys <= out.1.files.Keys
    ensures out.0.Success? ==> out.0.value in out.1.files
  {
    if s.html.None? || s.html.value == "" then (Failure(ProcessingException(NoHtmlMessage)), w)
    else if fake then
      var temp := TempName(w.tempDir, "browsershot_fake_", w.tempCount);
      var out := temp + ".png";
      (Success(out), w.(files := w.files[temp := Unreadable("")][out := ImageFile(DefaultWidth, DefaultHeight, "PNG", Blank("white"))],
                        tempCount := w.tempCount + 1))
    else
      var temp := TempName(w.tempDir, "browsershot_", w.tempCount);
      var out := temp + ".png";
      var w1 := w.(files := w.files[temp := Unreadable("")], tempCount := w.tempCount + 1);
      match renderer.save(Shot(s, instance, s.html.value))
      case Threw(message) => (Failure(ProcessingException(RenderingFailedMessage + message)), w1)
      case Saved(width, height) =>
        (Success(out), w1.(files := w1.files[out := ImageFile(width, height, "PNG", Screenshot(s.html.value))]))
      case NothingWritten =>
        if out in w1.files then (Success(out), w1)
        else (Failure(ProcessingException(RenderingFailedMessage + NotWrittenMessage)), w1)
  }

  /** Without HTML the stage fails before anything else, in fake mode too, and the disk is left alone. */
  lemma RunRequiresHtml(s: Settings, instance: Option<Browsershot>, w: World, fake: bool, renderer: Renderer)
    requires s.options.Valid()
    requires s.html.None? || s.html == Some("")
    ensures Run(s, instance, w, fake, renderer) == (Failure(ProcessingException(NoHtmlMessage)), w)
  {
  }

  /** In fake mode the stage writes an 800 x 480 white PNG, whatever the configured viewport, and never calls the browser. */
  lemma RunFake(s: Settings, instance: Option<Browsershot>, w: World, renderer: Renderer)
    requires s.options.Valid()
    requires s.html.Some? && s.html.value != ""
    ensures var (r, w') := Run(s, instance, w, true, renderer);
      && r == Success(TempName(w.tempDir, "browsershot_fake_", w.tempCount) + ".png")
      && w'.files[r.value] == ImageFile(800, 480, "PNG", Blank("white"))
      && w'.tempCount == w.tempCount + 1
  {
  }

  /** A browser failure surfaces with the stage's prefix, and a screenshot is reported only when its file exists. */
  lemma RunReportsExistingScreenshot(s: Settings, instance: Option<Browsershot>, w: World, renderer: Renderer)
    requires s.options.Valid()
    requires s.html.Some? && s.html.value != ""
    ensures var (r, w') := Run(s, instance, w, false, renderer);
      && (r.Success? ==> r.value in w'.files && r.value == TempName(w.tempDir, "browsershot_", w.tempCount) + ".png")
      && (renderer.save(Shot(s, instance, s.html.value)).Threw? ==>
            r == Failure(ProcessingException(RenderingFailedMessage + renderer.save(Shot(s, instance, s.html.value)).message)))
  {
  }

  /**
   * The two outcomes of `save` that throw nothing: a written screenshot is reported at the
   * temporary name plus ".png", and a save that writes nothing fails with the stage's own
   * message unless a file of that name was already on the disk.
   */
  lemma RunReportsSaveOutcome(s: Settings, instance: Option<Browsershot>, w: World, renderer: Renderer)
    requires s.options.Valid()
    requires s.html.Some? && s.html.value != ""
    ensures var out := TempName(w.tempDir, "browsershot_", w.tempCount) + ".png";
      var (r, w') := Run(s, instance, w, false, renderer);
      var saved := renderer.save(Shot(s, instance, s.html.value));
      && (saved.Saved? ==>
            r == Success(out) && w'.files[out] == ImageFile(saved.width, saved.height, "PNG", Screenshot(s.html.value)))
      && (saved.NothingWritten? ==>
            (r == Success(out) <==> out in w.files) &&
            (out !in w.files ==> r == Failure(ProcessingException(RenderingFailedMessage + NotWrittenMessage))))
  {
    var temp := TempName(w.tempDir, "browsershot_", w.tempCount);
    assert |temp + ".png"| != |temp|;
  }

  class BrowserStage {
    var html: Option<string>
    var width: Option<int>
    var height: Option<int>
    var useDefaultDimensions: bool
    var options: Dict<Value>
    const instance: Option<Browsershot>

    function Config(): Settings
      reads this
    {
      Settings(html, width, height, useDefaultDimensions, options)
    }

    ghost predicate Valid()
      reads this
    {
      options.Valid()
    }

    /** A new stage, optionally around a preconfigured browser: nothing set, model dimensions, no options. */
    constructor (instance: Option<Browsershot>)
      ensures Valid()
      ensures Config() == Settings(None, None, None, false, Empty())
      ensures this.instance == instance
    {
      html, width, height := None, None, None;
      useDefaultDimensions := false;
      options := Empty();
      this.instance := instance;
    }

    method SetHtml(h: string)
      requires Valid()
      modifies this
      ensures Valid()
      ensures Config() == old(Config()).(html := Some(h))
    {
      html := Some(h);
    }

    method SetWidth(w: int)
      requires Valid()
      modifies this
      ensures Valid()
      ensures Config() == old(Config()).(width := Some(w))
    {
      width := Some(w);
    }

    method SetHeight(h: int)
      requires Valid()
      modifies this
      ensures Valid()
      ensures Config() == old(Config()).(height := Some(h))
    {
      height := Some(h);
    }

    /** `setBrowsershotOption`: `$options[$name] = $value`. */
    method SetBrowsershotOption(name: string, value: Value)
      requires Valid()
      modifies this
      ensures Valid()
      ensures Config() == old(Config()).(options := old(options).Assign(name, value))
    {
      options := options.Assign(name, value);
    }

    method UseDefaultDimensions()
      requires Valid()
      modifies this
      ensures Valid()
      ensures Config() == old(Config()).(useDefaultDimensions := true)
    {
      useDefaultDimensions := true;
    }

    /** `configureFromModel`, field by field; a failed device lookup escapes with nothing changed. */
    method ConfigureFromModel(m: DM.Model, c: MD.Catalog) returns (r: Outcome<ProcessingException>)
      requires Valid()
      modifies this
      ensures Valid()
      ensures r.Pass? <==> Configured(old(Config()), m, c).Success?
      ensures r.Pass? ==> Config() == Configured(old(Config()), m, c).value
      ensures r.Fail? ==> Config() == old(Config()) && r.error == Configured(old(Config()), m, c).error
    {
      ghost var before := Config();
      if !useDefaultDimensions {
        if width.None? {
          var w := m.GetWidth(c);
          if w.Failure? {
            assert Configured(before, m, c).Failure?;
            return Fail(w.error);
          }
          width := Some(w.value);
        }
        if height.None? {
          var h := m.GetHeight(c);
          if h.Failure? {
            assert Configured(before, m, c).Failure?;
            return Fail(h.error);
          }
          height := Some(h.value);
        }
      } else {
        if width.None? {
          width := Some(DefaultWidth);
        }
        if height.None? {
          height := Some(DefaultHeight);
        }
      }
      return Pass;
    }

    /** The `foreach` over the options: each `setOption` call in insertion order. */
    method ApplyOptions(b: Browsershot) returns (r: Browsershot)
      requires Valid()
      ensures r == b.(optionCalls := b.optionCalls + options.Pairs())
    {
      r := b;
      var pairs := options.Pairs();
      for i := 0 to |options.keys|
        invariant r == b.(optionCalls := b.optionCalls + pairs[..i])
      {
        var name := options.keys[i];
        r := r.SetOption(name, options.entries[name]);
        assert pairs[..i + 1] == pairs[..i] + [(name, options.entries[name])];
      }
      assert pairs[..|options.keys|] == pairs;
    }

    /** `__invoke`: checks for HTML, then writes a placeholder (fake mode) or has the browser save a screenshot. */
    method Invoke(payload: Value, fs: FileSystem, mode: FakeMode, renderer: Renderer) returns (r: Result<string, ProcessingException>)
      requires Valid()
      modifies fs
      ensures (r, fs.State()) == Run(Config(), instance, old(fs.State()), mode.isFake, renderer)
    {
      if html.None? || html.value == "" {
        return Failure(ProcessingException(NoHtmlMessage));
      }
      if mode.IsFake() {
        var out := CreateMockImage(fs);
        return Success(out);
      }
      var temp := fs.TempNam("browsershot_");
      var out := temp + ".png";
      var shot := Started(instance, html.value);
      shot := shot.(windowSize := Some((width.GetOr(DefaultWidth), height.GetOr(DefaultHeight))), screenshotType := Some("png"));
      shot := ApplyOptions(shot);
      match renderer.save(shot) {
        case Threw(message) =>
          return Failure(ProcessingException(RenderingFailedMessage + message));
        case Saved(w, h) =>
          fs.Write(out, ImageFile(w, h, "PNG", Screenshot(html.value)));
        case NothingWritten =>
      }
      if !fs.Exists(out) {
        return Failure(ProcessingException(RenderingFailedMessage + NotWrittenMessage));
      }
      return Success(out);
    }

    /** `createMockImage`: a white 800 x 480 PNG under the next temporary name. */
    method CreateMockImage(fs: FileSystem) returns (out: string)
      modifies fs
      ensures out == TempName(fs.tempDir, "browsershot_fake_", old(fs.tempCount)) + ".png"
      ensures fs.State() == old(fs.State()).(
        files := old(fs.files)[TempName(fs.tempDir, "browsershot_fake_", old(fs.tempCount)) := Unreadable("")][out := ImageFile(DefaultWidth, DefaultHeight, "PNG", Blank("white"))],
        tempCount := old(fs.tempCount) + 1)
    {
      var temp := fs.TempNam("browsershot_fake_");
      out := temp + ".png";
      fs.Write(out, ImageFile(DefaultWidth, DefaultHeight, "PNG", Blank("white")));
    }
  }
}

=== FILE: device_model.dfy ===
/**
 * The `Model` enum (src/Model.php): the supported display models, each backed
 * by the catalog record of the same name, except `OG`, which borrows the
 * record of `og_plus`.
 */
module DeviceModel {
  import opened Wrappers
  import opened Exceptions
  import opened PhpArray
  import MD = ModelData

  /** The enum cases, in declaration order. */
  datatype Model =
    | Og
    | OgPng
    | OgBmp
    | V2
    | AmazonKindle2024
    | AmazonKindlePaperwhite6thGen
    | AmazonKindlePaperwhite7thGen
    | Inkplate10
    | AmazonKindle7
    | InkyImpression7_3
    | KoboLibra2
    | AmazonKindleOasis2
    | OgPlus
    | KoboAuraOne
    | KoboAuraHd
    | InkyImpression13_3
    | M5PaperS3
    | AmazonKindleScribe
    | SeeedE1001
    | SeeedE1002
    | Waveshare4_26
    | Waveshare7_5Bw
  {
    /** The case's backing string value. */
    function Value(): string {
      match this
      case Og => "og"
      case OgPng => "og_png"
      case OgBmp => "og_bmp"
      case V2 => "v2"
      case AmazonKindle2024 => "amazon_kindle_2024"
      case AmazonKindlePaperwhite6thGen => "amazon_kindle_paperwhite_6th_gen"
      case AmazonKindlePaperwhite7thGen => "amazon_kindle_paperwhite_7th_gen"
      case Inkplate10 => "inkplate_10"
      case AmazonKindle7 => "amazon_kindle_7"
      case InkyImpression7_3 => "inky_impression_7_3"
      case KoboLibra2 => "kobo_libra_2"
      case AmazonKindleOasis2 => "amazon_kindle_oasis_2"
      case OgPlus => "og_plus"
      case KoboAuraOne => "kobo_aura_one"
      case KoboAuraHd => "kobo_aura_hd"
      case InkyImpression13_3 => "inky_impression_13_3"
      case M5PaperS3 => "m5_paper_s3"
      case AmazonKindleScribe => "amazon_kindle_scribe"
      case SeeedE1001 => "seeed_e1001"
      case SeeedE1002 => "seeed_e1002"
      case Waveshare4_26 => "waveshare_4_26"
      case Waveshare7_5Bw => "waveshare_7_5_bw"
    }

    /** The catalog name whose record backs this case: the alias `og` -> `og_plus`, otherwise the case's own value. */
    function DataName(): (n: string)
      ensures this == Og ==> n == "og_plus"
      ensures this != Og ==> n == Value()
    {
      if this == Og then "og_plus" else Value()
    }

    /** `getData`: the backing record, or the catalog's not-found exception. */
    function GetData(c: MD.Catalog): (r: Result<MD.ModelData, ProcessingException>)
      ensures r.Success? <==> DataName() in c.entries
      ensures r.Success? ==> r.value == c.entries[DataName()]
      ensures r.Failure? ==> r.error.message == MD.NotFoundMessage(DataName())
    {
      MD.GetByName(c, DataName())
    }

    function GetLabel(c: MD.Catalog): (r: Result<string, ProcessingException>)
      ensures r.Success? <==> DataName() in c.entries
      ensures r.Success? ==> r.value == c.entries[DataName()].displayLabel
    {
      var d :- GetData(c); Success(d.displayLabel)
    }

    function GetDescription(c: MD.Catalog): (r: Result<string, ProcessingException>)
      ensures r.Success? <==> DataName() in c.entries
      ensures r.Success? ==> r.value == c.entries[DataName()].description
    {
      var d :- GetData(c); Success(d.description)
    }

    function GetWidth(c: MD.Catalog): (r: Result<int, ProcessingException>)
      ensures r.Success? <==> DataName() in c.entries
      ensures r.Success? ==> r.value == c.entries[DataName()].width
    {
      var d :- GetData(c); Success(d.width)
    }

    function GetHeight(c: MD.Catalog): (r: Result<int, ProcessingException>)
      ensures r.Success? <==> DataName() in c.entries
      ensures r.Success? ==> r.value == c.entries[DataName()].height
    {
      var d :- GetData(c); Success(d.height)
    }

    function GetColors(c: MD.Catalog): (r: Result<int, ProcessingException>)
      ensures r.Success? <==> DataName() in c.entries
      ensures r.Success? ==> r.value == c.entries[DataName()].colors
    {
      var d :- GetData(c); Success(d.colors)
    }

    function GetBitDepth(c: MD.Catalog): (r: Result<int, ProcessingException>)
      ensures r.Success? <==> DataName() in c.entries
      ensures r.Success? ==> r.value == c.entries[DataName()].bitDepth
    {
      var d :- GetData(c); Success(d.bitDepth)
    }

    function GetScaleFactor(c: MD.Catalog): (r: Result<real, ProcessingException>)
      ensures r.Success? <==> DataName() in c.entries
      ensures r.Success? ==> r.value == c.entries[DataName()].scaleFactor
    {
      var d :- GetData(c); Success(d.scaleFactor)
    }

    function GetRotation(c: MD.Catalog): (r: Result<int, ProcessingException>)
      ensures r.Success? <==> DataName() in c.entries
      ensures r.Success? ==> r.value == c.entries[DataName()].rotation
    {
      var d :- GetData(c); Success(d.rotation)
    }

    function GetMimeType(c: MD.Catalog): (r: Result<string, ProcessingException>)
      ensures r.Success? <==> DataName() in c.entries
      ensures r.Success? ==> r.value == c.entries[DataName()].mimeType
    {
      var d :- GetData(c); Success(d.mimeType)
    }

    function GetOffsetX(c: MD.Catalog): (r: Result<int, ProcessingException>)
      ensures r.Success? <==> DataName() in c.entries
      ensures r.Success? ==> r.value == c.entries[DataName()].offsetX
    {
      var d :- GetData(c); Success(d.offsetX)
    }

    function GetOffsetY(c: MD.Catalog): (r: Result<int, ProcessingException>)
      ensures r.Success? <==> DataName() in c.entries
      ensures r.Success? ==> r.value == c.entries[DataName()].offsetY
    {
      var d :- GetData(c); Success(d.offsetY)
    }

    function GetKind(c: MD.Catalog): (r: Result<string, ProcessingException>)
      ensures r.Success? <==> DataName() in c.entries
      ensures r.Success? ==> r.value == c.entries[DataName()].kind
    {
      var d :- GetData(c); Success(d.kind)
    }
  }

  /** `Model::cases()`: every case once, in declaration order. */
  function Cases(): (all: seq<Model>)
    ensures Distinct(all)
    ensures |all| == 22
  {
    [Og, OgPng, OgBmp, V2, AmazonKindle2024, AmazonKindlePaperwhite6thGen, AmazonKindlePaperwhite7thGen,
     Inkplate10, AmazonKindle7, InkyImpression7_3, KoboLibra2, AmazonKindleOasis2, OgPlus, KoboAuraOne,
     KoboAuraHd, InkyImpression13_3, M5PaperS3, AmazonKindleScribe, SeeedE1001, SeeedE1002,
     Waveshare4_26, Waveshare7_5Bw]
  }

  /**
   * `getByKind`: the cases, in declaration order, whose own value names a
   * catalog record of the given kind (the `og` alias is not applied here).
   */
  function GetByKind(c: MD.Catalog, kind: string): (r: seq<Model>)
    requires c.Valid()
    ensures forall m :: m in r <==> m.Value() in c.entries && c.entries[m.Value()].kind == kind
    ensures IsSubsequence(r, Cases())
    ensures Distinct(r)
  {
    var sub := MD.GetByKind(c, kind);
    assert forall m :: m in Cases() by {
      forall m ensures m in Cases() { CasesComplete(m); }
    }
    FilterSeq(Cases(), (m: Model) => m.Value() in sub.keys)
  }

  function GetTrmnlModels(c: MD.Catalog): (r: seq<Model>)
    requires c.Valid()
    ensures forall m :: m in r <==> m.Value() in c.entries && c.entries[m.Value()].kind == "trmnl"
    ensures r == GetByKind(c, "trmnl")
  {
    GetByKind(c, "trmnl")
  }

  function GetKindleModels(c: MD.Catalog): (r: seq<Model>)
    requires c.Valid()
    ensures forall m :: m in r <==> m.Value() in c.entries && c.entries[m.Value()].kind == "kindle"
    ensures r == GetByKind(c, "kindle")
  {
    GetByKind(c, "kindle")
  }

  function GetByodModels(c: MD.Catalog): (r: seq<Model>)
    requires c.Valid()
    ensures forall m :: m in r <==> m.Value() in c.entries && c.entries[m.Value()].kind == "byod"
    ensures r == GetByKind(c, "byod")
  {
    GetByKind(c, "byod")
  }

  /**
   * Without an `og` record, `getByKind` never lists `OG`, even though `OG`
   * reports the kind of the `og_plus` record it borrows.
   */
  lemma OgNotListedByKind(c: MD.Catalog)
    requires c.Valid()
    requires "og" !in c.entries && "og_plus" in c.entries
    ensures Og.GetKind(c) == Success(c.entries["og_plus"].kind)
    ensures OgPlus in GetByKind(c, c.entries["og_plus"].kind)
    ensures forall kind :: Og !in GetByKind(c, kind)
  {
    assert Og.Value() == "og" && OgPlus.Value() == "og_plus";
  }

  /** Every case occurs in `Cases()`, at the position of its declaration. */
  lemma CasesComplete(m: Model)
    ensures m in Cases()
  {
    match m
    case Og => assert Cases()[0] == m;
    case OgPng => assert Cases()[1] == m;
    case OgBmp => assert Cases()[2] == m;
    case V2 => assert Cases()[3] == m;
    case AmazonKindle2024 => assert Cases()[4] == m;
    case AmazonKindlePaperwhite6thGen => assert Cases()[5] == m;
    case AmazonKindlePaperwhite7thGen => assert Cases()[6] == m;
    case Inkplate10 => assert Cases()[7] == m;
    case AmazonKindle7 => assert Cases()[8] == m;
    case InkyImpression7_3 => assert Cases()[9] == m;
    case KoboLibra2 => assert Cases()[10] == m;
    case AmazonKindleOasis2 => assert Cases()[11] == m;
    case OgPlus => assert Cases()[12] == m;
    case KoboAuraOne => assert Cases()[13] == m;
    case KoboAuraHd => assert Cases()[14] == m;
    case InkyImpression13_3 => assert Cases()[15] == m;
    case M5PaperS3 => assert Cases()[16] == m;
    case AmazonKindleScribe => assert Cases()[17] == m;
    case SeeedE1001 => assert Cases()[18] == m;
    case SeeedE1002 => assert Cases()[19] == m;
    case Waveshare4_26 => assert Cases()[20] == m;
    case Waveshare7_5Bw => assert Cases()[21] == m;
  }
}

=== FILE: fake_mode.dfy ===
/**
 * The process-wide fake switch of `TrmnlPipeline` (`fake()`, `restore()`,
 * `isFake()`): while it is on, the stages write placeholder images instead of
 * calling Imagick or the browser. The static property becomes one shared
 * object that the stages consult.
 */
module FakeSwitch {

  class FakeMode {
    var isFake: bool

    /** The switch starts off. */
    constructor ()
      ensures !isFake && !IsFake()
    {
      isFake := false;
    }

    /** `TrmnlPipeline::fake()`. */
    method Fake()
      modifies this
      ensures isFake && IsFake()
    {
      isFake := true;
    }

    /** `TrmnlPipeline::restore()`. */
    method Restore()
      modifies this
      ensures !isFake && !IsFake()
    {
      isFake := false;
    }

    /** `TrmnlPipeline::isFake()`: whether the switch is on. */
    function IsFake(): (on: bool)
      reads this
      ensures on <==> isFake
    {
      isFake
    }
  }
}

=== FILE: host.dfy ===
/**
 * What the stages see of their surroundings: image contents as terms, the
 * files on disk, and the temporary-name generator (`tempnam`).
 *
 * Pixels are not modelled. A picture is the term that records how it was
 * made (read from a file, drawn on a blank canvas, resampled, composited,
 * rotated, remapped, quantized), so the order and the arguments of the
 * Imagick calls a stage makes stay visible in the files it writes.
 */
module Host {
  import opened PhpValue

  /** A picture, as the sequence of operations that produced it. */
  datatype Picture =
    | Original(name: string)                                  // pixels found in a file that existed beforehand
    | Screenshot(html: string)                                // a page rendered by the headless browser
    | Blank(background: string)                               // a canvas filled with one named colour
    | Over(canvas: Picture, top: Picture, x: int, y: int)     // `top` composited onto `canvas` at (x, y)
    | Resampled(source: Picture, width: int, height: int)     // scaled to width x height
    | Rotated(source: Picture, degrees: int, background: string)
    | Remapped(source: Picture, palette: seq<string>)         // every pixel mapped to the nearest palette entry
    | Quantized(source: Picture, colors: int)

  /** A file: an image that can be decoded, or something that cannot (the reason is the decoder's error message). */
  datatype FileEntry =
    | ImageFile(width: int, height: int, encoding: string, picture: Picture)
    | Unreadable(reason: string)

  /** The state of the disk: the temporary directory, the files, and how many temporary names have been handed out. */
  datatype World = World(tempDir: string, files: map<string, FileEntry>, tempCount: nat)

  /** The name `tempnam($dir, $prefix)` hands out as the `n`-th temporary name. */
  function TempName(dir: string, prefix: string, n: nat): string {
    dir + "/" + prefix + NatToDecimal(n)
  }

  /** The disk, with `sys_get_temp_dir()` fixed as `tempDir`. */
  class FileSystem {
    var files: map<string, FileEntry>
    var tempCount: nat
    const tempDir: string

    constructor (tempDir: string, files: map<string, FileEntry>)
      ensures this.files == files && this.tempDir == tempDir && tempCount == 0
    {
      this.files := files;
      this.tempDir := tempDir;
      tempCount := 0;
    }

    function State(): World
      reads this
    {
      World(tempDir, files, tempCount)
    }

    /** `file_exists`. */
    predicate Exists(path: string)
      reads this
    {
      path in files
    }

    /** Writes (or replaces) the file at `path`. */
    method Write(path: string, entry: FileEntry)
      modifies this
      ensures files == old(files)[path := entry]
      ensures tempCount == old(tempCount)
    {
      files := files[path := entry];
    }

    /** `tempnam(sys_get_temp_dir(), $prefix)`: hands out the next name and creates it as an empty file. */
    method TempNam(prefix: string) returns (p: string)
      modifies this
      ensures p == TempName(tempDir, prefix, old(tempCount))
      ensures files == old(files)[p := Unreadable("")]
      ensures tempCount == old(tempCount) + 1
    {
      p := TempName(tempDir, prefix, tempCount);
      files := files[p := Unreadable("")];
      tempCount := tempCount + 1;
    }
  }
}

=== FILE: image_stage.dfy ===
/**
 * The image stage (src/Stages/ImageStage.php): resizes an image to the
 * target size (best fit, then centred on a white canvas of exactly that
 * size), translates it, rotates it, maps it onto a colour table, quantizes
 * it, sets its bit depth and format, strips its metadata and writes it next
 * to the input.
 *
 * Its settings are nullable fields; a `null` falls back to a default when
 * the stage runs, or is filled from a device record by `configureFromModel`.
 */
module ImageStage {
  import opened Wrappers
  import opened Exceptions
  import opened PhpValue
  import opened Host
  import opened Imagick
  import opened FakeSwitch
  import Paths
  import MD = ModelData
  import DM = DeviceModel

  const DefaultWidth := 800
  const DefaultHeight := 480
  const DefaultColors := 2
  const DefaultBitDepth := 1
  const DefaultRotation := 0
  const DefaultOffsetX := 0
  const DefaultOffsetY := 0
  const DefaultFormat := "png"

  const MissingFileMessage := "Invalid or missing image file: "
  const ProcessingFailedMessage := "Image processing failed: "

  /** The default 2-bit table: black, dark gray, light gray, white. */
  const TwoBitGrays := ["#000000", "#555555", "#aaaaaa", "#ffffff"]

  /** The table for every other depth: black and white. */
  const BlackAndWhite := ["#000000", "#ffffff"]

  /** The stage's settings; `None` is a field still `null`. */
  datatype Settings = Settings(
    format: Option<string>,
    width: Option<int>,
    height: Option<int>,
    colors: Option<int>,
    bitDepth: Option<int>,
    rotation: Option<int>,
    offsetX: Option<int>,
    offsetY: Option<int>,
    outputPath: Option<string>,
    colormap: Option<seq<string>>)

  /** The settings of a new stage: nothing set. */
  function Unset(): Settings {
    Settings(None, None, None, None, None, None, None, None, None, None)
  }

  /** `getFormatFromMimeType`: "bmp" for the BMP MIME type or the bare word, "png" for anything else. */
  function FormatFromMimeType(mimeType: string): (f: string)
    ensures f == "bmp" <==> mimeType == "image/bmp" || mimeType == "bmp"
    ensures f != "bmp" ==> f == DefaultFormat
  {
    if mimeType == "image/bmp" || mimeType == "bmp" then "bmp" else DefaultFormat
  }

  /**
   * `configureFromModel` on settings `s` with device record `d`: every field
   * still unset is taken from the record (a width that is not positive
   * becomes 800, the MIME type becomes a format); a field already set keeps
   * its value, and the output path and colour table are not touched.
   */
  function Configured(s: Settings, d: MD.ModelData): (r: Settings)
    ensures r.outputPath == s.outputPath && r.colormap == s.colormap
    ensures s.width.Some? ==> r.width == s.width
    ensures s.height.Some? ==> r.height == s.height
    ensures s.colors.Some? ==> r.colors == s.colors
    ensures s.bitDepth.Some? ==> r.bitDepth == s.bitDepth
    ensures s.rotation.Some? ==> r.rotation == s.rotation
    ensures s.offsetX.Some? ==> r.offsetX == s.offsetX
    ensures s.offsetY.Some? ==> r.offsetY == s.offsetY
    ensures s.format.Some? ==> r.format == s.format
    ensures s.width.None? ==> r.width == Some(if d.width > 0 then d.width else DefaultWidth)
    ensures s.height.None? ==> r.height == Some(d.height)
    ensures s.colors.None? ==> r.colors == Some(d.colors)
    ensures s.bitDepth.None? ==> r.bitDepth == Some(d.bitDepth)
    ensures s.rotation.None? ==> r.rotation == Some(d.rotation)
    ensures s.offsetX.None? ==> r.offsetX == Some(d.offsetX)
    ensures s.offsetY.None? ==> r.offsetY == Some(d.offsetY)
    ensures s.format.None? ==> r.format == Some(FormatFromMimeType(d.mimeType))
  {
    s.(
      width := if s.width.None? then Some(if d.width > 0 then d.width else DefaultWidth) else s.width,
      height := if s.height.None? then Some(d.height) else s.height,
      colors := if s.colors.None? then Some(d.colors) else s.colors,
      bitDepth := if s.bitDepth.None? then Some(d.bitDepth) else s.bitDepth,
      rotation := if s.rotation.None? then Some(d.rotation) else s.rotation,
      offsetX := if s.offsetX.None? then Some(d.offsetX) else s.offsetX,
      offsetY := if s.offsetY.None? then Some(d.offsetY) else s.offsetY,
      format := if s.format.None? then Some(FormatFromMimeType(d.mimeType)) else s.format)
  }

  /** After configuration every device-derived field is set, so configuring again, from any record, changes nothing. */
  lemma ConfiguredIsFinal(s: Settings, d: MD.ModelData, d2: MD.ModelData)
    ensures var r := Configured(s, d);
      && r.width.Some? && r.height.Some? && r.colors.Some? && r.bitDepth.Some?
      && r.rotation.Some? && r.offsetX.Some? && r.offsetY.Some? && r.format.Some?
    ensures Configured(Configured(s, d), d2) == Configured(s, d)
  {
  }

  /** PHP's `(int) round($n / 2)`: exact for even `n`, halves rounded away from zero for odd `n`. */
  function HalfRounded(n: int): (r: int)
    ensures n % 2 == 0 ==> 2 * r == n
    ensures n % 2 == 1 && n > 0 ==> 2 * r == n + 1
    ensures n % 2 == 1 && n < 0 ==> 2 * r == n - 1
  {
    if n >= 0 then (n + 1) / 2 else -((-n + 1) / 2)
  }

  /** Rounding halves away from zero is symmetric around zero. */
  lemma HalfRoundedIsOdd(n: int)
    ensures HalfRounded(-n) == -HalfRounded(n)
  {
  }

  /**
   * An image no larger than the canvas, placed at the rounded centre offset,
   * lies inside the canvas, and the space left over is split evenly, with
   * the extra pixel of an odd remainder on the leading side.
   */
  lemma {:induction false} CenteredImageInsideCanvas(canvas: int, image: int)
    requires 0 <= image <= canvas
    ensures var x := HalfRounded(canvas - image);
      && 0 <= x && x + image <= canvas
      && (canvas - image - x == x || canvas - image - x == x - 1)
  {
    var n := canvas - image;
    if n % 2 == 0 {
      assert 2 * HalfRounded(n) == n;
    } else {
      assert 2 * HalfRounded(n) == n + 1;
    }
  }

  /** `createCanvasWithCenteredImage`: unchanged when already canvas-sized, otherwise the image centred on a white canvas of that size. */
  function Centered(st: ImageState, canvasWidth: int, canvasHeight: int): (r: ImageState)
    ensures r.width == canvasWidth && r.height == canvasHeight
    ensures st.width == canvasWidth && st.height == canvasHeight ==> r == st
    ensures !(st.width == canvasWidth && st.height == canvasHeight) ==>
      r.picture == Over(Blank("white"), st.picture, HalfRounded(canvasWidth - st.width), HalfRounded(canvasHeight - st.height))
    ensures r.format == st.format && r.depth == st.depth && r.options == st.options && r.stripped == st.stripped
  {
    if st.width == canvasWidth && st.height == canvasHeight then st
    else
      var x := HalfRounded(canvasWidth - st.width);
      var y := HalfRounded(canvasHeight - st.height);
      st.(width := canvasWidth, height := canvasHeight, picture := Over(Blank("white"), st.picture, x, y))
  }

  function TargetWidth(s: Settings): int {
    s.width.GetOr(DefaultWidth)
  }

  function TargetHeight(s: Settings): int {
    s.height.GetOr(DefaultHeight)
  }

  /** `resize`: best fit within the target (skipped when the size is already right), then centred on the exact target size. */
  function AfterResize(s: Settings, b: Backend, st: ImageState): (r: ImageState)
    ensures r.width == TargetWidth(s) && r.height == TargetHeight(s)
    ensures st.width == TargetWidth(s) && st.height == TargetHeight(s) ==> r == st
  {
    var tw, th := TargetWidth(s), TargetHeight(s);
    var fitted :=
      if tw != st.width || th != st.height then
        var size := b.bestFit(st.width, st.height, tw, th);
        st.(width := size.0, height := size.1, picture := Resampled(st.picture, size.0, size.1))
      else st;
    Centered(fitted, tw, th)
  }

  /** Resizing is idempotent: a second `resize` with the same settings changes nothing. */
  lemma ResizeIsIdempotent(s: Settings, b: Backend, st: ImageState)
    ensures AfterResize(s, b, AfterResize(s, b, st)) == AfterResize(s, b, st)
  {
  }

  /**
   * When the best fit lies within the target, the resized picture is the
   * fitted picture placed inside the canvas, centred.
   */
  lemma {:induction false} ResizePlacesFitInside(s: Settings, b: Backend, st: ImageState)
    requires st.width != TargetWidth(s) || st.height != TargetHeight(s)
    requires var size := b.bestFit(st.width, st.height, TargetWidth(s), TargetHeight(s));
      0 <= size.0 <= TargetWidth(s) && 0 <= size.1 <= TargetHeight(s) && size != (TargetWidth(s), TargetHeight(s))
    ensures var size := b.bestFit(st.width, st.height, TargetWidth(s), TargetHeight(s));
      var r := AfterResize(s, b, st);
      && r.picture.Over? && r.picture.canvas == Blank("white")
      && r.picture.top == Resampled(st.picture, size.0, size.1)
      && r.picture.x == HalfRounded(TargetWidth(s) - size.0)
      && r.picture.y == HalfRounded(TargetHeight(s) - size.1)
      && 0 <= r.picture.x && r.picture.x + size.0 <= TargetWidth(s)
      && 0 <= r.picture.y && r.picture.y + size.1 <= TargetHeight(s)
      && (TargetWidth(s) - size.0 - r.picture.x == r.picture.x || TargetWidth(s) - size.0 - r.picture.x == r.picture.x - 1)
      && (TargetHeight(s) - size.1 - r.picture.y == r.picture.y || TargetHeight(s) - size.1 - r.picture.y == r.picture.y - 1)
  {
    var size := b.bestFit(st.width, st.height, TargetWidth(s), TargetHeight(s));
    CenteredImageInsideCanvas(TargetWidth(s), size.0);
    CenteredImageInsideCanvas(TargetHeight(s), size.1);
  }

  /** `offset`: skipped only when both offsets are explicitly 0; otherwise drawn onto a same-size white canvas at (offsetX ?? 0, offsetY ?? 0). */
  function AfterOffset(s: Settings, st: ImageState): (r: ImageState)
    ensures r.width == st.width && r.height == st.height
    ensures r == st <==> s.offsetX == Some(0) && s.offsetY == Some(0)
    ensures r != st ==> r.picture == Over(Blank("white"), st.picture, s.offsetX.GetOr(DefaultOffsetX), s.offsetY.GetOr(DefaultOffsetY))
  {
    if s.offsetX == Some(0) && s.offsetY == Some(0) then st
    else st.(picture := Over(Blank("white"), st.picture, s.offsetX.GetOr(DefaultOffsetX), s.offsetY.GetOr(DefaultOffsetY)))
  }

  /** `rotate`: skipped only when the rotation is explicitly 0; otherwise rotated by `rotation ?? 0` on white. */
  function AfterRotate(s: Settings, b: Backend, st: ImageState): (r: ImageState)
    ensures s.rotation == Some(0) ==> r == st
    ensures s.rotation != Some(0) ==>
      (r.width, r.height) == RotatedSize(b, st.width, st.height, s.rotation.GetOr(DefaultRotation))
      && r.picture == Rotated(st.picture, s.rotation.GetOr(DefaultRotation), "white")
  {
    if s.rotation == Some(0) then st
    else
      var degrees := s.rotation.GetOr(DefaultRotation);
      var size := RotatedSize(b, st.width, st.height, degrees);
      st.(width := size.0, height := size.1, picture := Rotated(st.picture, degrees, "white"))
  }

  /**
   * The colour table `applyColormap` remaps onto, if any: only for the png
   * format (the default) at a bit depth (default 1) of at most 2; the
   * explicit table when one is set, else four grays at depth 2, else black
   * and white.
   */
  function ColormapFor(s: Settings): (r: Option<seq<string>>)
    ensures r.Some? <==> s.format.GetOr(DefaultFormat) == "png" && s.bitDepth.GetOr(DefaultBitDepth) <= 2
    ensures r.Some? && s.colormap.Some? ==> r.value == s.colormap.value
    ensures r.Some? && s.colormap.None? && s.bitDepth.GetOr(DefaultBitDepth) == 2 ==> r.value == TwoBitGrays
    ensures r.Some? && s.colormap.None? && s.bitDepth.GetOr(DefaultBitDepth) != 2 ==> r.value == BlackAndWhite
  {
    var format := s.format.GetOr(DefaultFormat);
    var depth := s.bitDepth.GetOr(DefaultBitDepth);
    if format != "png" || depth > 2 then None
    else if s.colormap.Some? then s.colormap
    else if depth == 2 then Some(TwoBitGrays)
    else Some(BlackAndWhite)
  }

  function Pow2(n: nat): nat {
    if n == 0 then 1 else 2 * Pow2(n - 1)
  }

  /** At depth 1 and 2 the default table has exactly one entry per representable level, from black up to white. */
  lemma DefaultColormapFitsDepth(s: Settings)
    requires s.colormap.None? && s.format.GetOr(DefaultFormat) == "png"
    requires s.bitDepth.GetOr(DefaultBitDepth) in {1, 2}
    ensures ColormapFor(s).Some?
    ensures |ColormapFor(s).value| == Pow2(s.bitDepth.GetOr(DefaultBitDepth))
    ensures ColormapFor(s).value[0] == "#000000" && ColormapFor(s).value[|ColormapFor(s).value| - 1] == "#ffffff"
  {
  }

  /** `applyColormap`: a remap onto `ColormapFor` when there is a table; size, format and options are untouched. */
  function AfterColormap(s: Settings, st: ImageState): (r: ImageState)
    ensures ColormapFor(s).None? ==> r == st
    ensures ColormapFor(s).Some? ==> r.picture == Remapped(st.picture, ColormapFor(s).value)
    ensures r.width == st.width && r.height == st.height && r.format == st.format
    ensures r.depth == st.depth && r.options == st.options && r.stripped == st.stripped
  {
    match ColormapFor(s)
    case None => st
    case Some(colors) => st.(picture := Remapped(st.picture, colors))
  }

  /** `quantize`: Floyd-Steinberg dithering on, other options kept, the picture reduced to `colors ?? 2`; size and format untouched. */
  function AfterQuantize(s: Settings, st: ImageState): (r: ImageState)
    ensures r.picture == Quantized(st.picture, s.colors.GetOr(DefaultColors))
    ensures r.options.Keys == st.options.Keys + {"dither"} && r.options["dither"] == "FloydSteinberg"
    ensures forall k :: k in st.options && k != "dither" ==> r.options[k] == st.options[k]
    ensures r.width == st.width && r.height == st.height && r.format == st.format
    ensures r.depth == st.depth && r.stripped == st.stripped
  {
    st.(options := st.options["dither" := "FloydSteinberg"], picture := Quantized(st.picture, s.colors.GetOr(DefaultColors)))
  }

  function Upper(s: string): (r: string)
    ensures |r| == |s|
  {
    seq(|s|, i requires 0 <= i < |s| => if 'a' <= s[i] <= 'z' then (s[i] as int - 32) as char else s[i])
  }

  /** The format the image is written in for the configured format (default "png"): BMP3 for "bmp", BMP for the BMP MIME type, PNG otherwise. */
  function OutputEncoding(format: string): (e: string)
    ensures e == "BMP3" <==> format == "bmp"
    ensures e == "BMP" <==> format == "image/bmp"
    ensures e == "PNG" <==> format != "bmp" && format != "image/bmp"
  {
    if format == "bmp" then "BMP3"
    else
      assert Upper("bmp") == "BMP" && Upper("png") == "PNG";
      Upper(FormatFromMimeType(format))
  }

  /**
   * `applyTransformations`: resize, offset, rotate, colour table, quantize,
   * then depth, format and stripping. Whatever the input size, the result has
   * the final size and is written at the configured depth and encoding, with
   * its metadata stripped and dithering on.
   */
  function Transformed(s: Settings, b: Backend, st: ImageState): (r: ImageState)
    ensures (r.width, r.height) == FinalSize(s, b)
    ensures r.depth == Some(s.bitDepth.GetOr(DefaultBitDepth))
    ensures r.format == OutputEncoding(s.format.GetOr(DefaultFormat))
    ensures r.stripped && "dither" in r.options && r.options["dither"] == "FloydSteinberg"
  {
    var quantized := AfterQuantize(s, AfterColormap(s, AfterRotate(s, b, AfterOffset(s, AfterResize(s, b, st)))));
    quantized.(
      depth := Some(s.bitDepth.GetOr(DefaultBitDepth)),
      format := OutputEncoding(s.format.GetOr(DefaultFormat)),
      stripped := true)
  }

  /** The size of the transformed image: the target size, turned by the rotation unless that is explicitly 0. */
  function FinalSize(s: Settings, b: Backend): (int, int) {
    if s.rotation == Some(0) then (TargetWidth(s), TargetHeight(s))
    else RotatedSize(b, TargetWidth(s), TargetHeight(s), s.rotation.GetOr(DefaultRotation))
  }

  /** The final size is the target size, kept by a half or full turn and swapped by a quarter turn. */
  lemma FinalSizeOfRightAngles(s: Settings, b: Backend)
    ensures s.rotation.GetOr(DefaultRotation) % 180 == 0 ==> FinalSize(s, b) == (TargetWidth(s), TargetHeight(s))
    ensures s.rotation.GetOr(DefaultRotation) % 180 == 90 ==> FinalSize(s, b) == (TargetHeight(s), TargetWidth(s))
  {
  }

  /**
   * A one-bit png device with no offsets and no rotation, given an image that
   * already has the target size: no resampling, canvas, translation or
   * rotation takes place; the picture is remapped to black and white and
   * then quantized.
   */
  lemma {:induction false} DefaultDeviceOnExactImage(d: MD.ModelData, b: Backend, st: ImageState)
    requires d.width == st.width && d.width > 0 && d.height == st.height
    requires d.bitDepth == 1 && d.rotation == 0 && d.offsetX == 0 && d.offsetY == 0 && d.mimeType == "image/png"
    ensures Transformed(Configured(Unset(), d), b, st) ==
      st.(picture := Quantized(Remapped(st.picture, BlackAndWhite), d.colors),
          options := st.options["dither" := "FloydSteinberg"],
          depth := Some(1), format := "PNG", stripped := true)
  {
    var s := Configured(Unset(), d);
    assert AfterResize(s, b, st) == st;
    assert AfterOffset(s, st) == st;
    assert AfterRotate(s, b, st) == st;
    assert ColormapFor(s) == Some(BlackAndWhite);
  }

  /** `extractImagePath`: a string payload is the path; otherwise the set `image_path` entry of an array, cast to string; otherwise "". */
  function ExtractImagePath(payload: Value): (p: string)
    ensures payload.Str? ==> p == payload.s
    ensures payload.Arr? && "image_path" in payload.entries && !payload.entries["image_path"].Null? ==>
      p == CastToString(payload.entries["image_path"])
    ensures !payload.Str? && !(payload.Arr? && "image_path" in payload.entries) ==> p == ""
    ensures payload.Null? || payload.Bool? || payload.Int? ==> p == ""
  {
    if payload.Str? then payload.s
    else if payload.Arr? && "image_path" in payload.entries && !payload.entries["image_path"].Null? then
      CastToString(payload.entries["image_path"])
    else ""
  }

  /** A path given bare and a path wrapped as `['image_path' => $path]` lead to the same file, and a `null` entry is no path. */
  lemma PayloadFormsAgree(path: string, others: map<string, Value>)
    ensures ExtractImagePath(Arr(others["image_path" := Str(path)])) == ExtractImagePath(Str(path))
    ensures ExtractImagePath(Arr(others["image_path" := Null])) == ""
  {
  }

  /** PHP's truthiness of a nullable string: `null`, "" and "0" are false. */
  predicate Truthy(format: Option<string>) {
    format.Some? && format.value != "" && format.value != "0"
  }

  /** `generateOutputPath`: `<dirname>/<filename>_processed.<ext>`, ext being the format if truthy, else the input's extension, else "png". */
  function GeneratedOutputPath(format: Option<string>, inputPath: string): (p: string)
    ensures var stem := Paths.Dirname(inputPath).GetOr(".") + "/" + Paths.Filename(inputPath) + "_processed.";
      && (Truthy(format) ==> p == stem + format.value)
      && (!Truthy(format) && Paths.Extension(inputPath).Some? ==> p == stem + Paths.Extension(inputPath).value)
      && (!Truthy(format) && Paths.Extension(inputPath).None? ==> p == stem + "png")
  {
    var extension := if Truthy(format) then format.value else Paths.Extension(inputPath).GetOr(DefaultFormat);
    Paths.Dirname(inputPath).GetOr(".") + "/" + Paths.Filename(inputPath) + "_processed." + extension
  }

  /** For `d/n.e` the output goes beside the input as `d/n_processed.<ext>`, keeping the input's extension unless a format is set. */
  lemma {:induction false} OutputPathBesideInput(format: Option<string>, d: string, n: string, e: string)
    requires d != [] && d[|d| - 1] != '/'
    requires '/' !in n && '/' !in e && '.' !in e
    ensures GeneratedOutputPath(format, d + "/" + n + "." + e) ==
      d + "/" + n + "_processed." + (if Truthy(format) then format.value else e)
  {
    Paths.PathinfoOfSimplePath(d, n, e);
  }

  /** A bare name without dot or slash, and no format set, gives `./<name>_processed.png`. */
  lemma {:induction false} OutputPathOfBareName(f: string)
    requires f != [] && '/' !in f && '.' !in f
    ensures GeneratedOutputPath(None, f) == "./" + f + "_processed.png"
  {
    Paths.PathinfoOfBareName(f);
  }

  /** `writeImage` / `createMockProcessedImage`: the explicit output path if set, otherwise the generated one. */
  function OutputPathFor(s: Settings, inputPath: string): (p: string)
    ensures s.outputPath.Some? ==> p == s.outputPath.value
    ensures s.outputPath.None? ==> p == GeneratedOutputPath(s.format, inputPath)
  {
    s.outputPath.GetOr(GeneratedOutputPath(s.format, inputPath))
  }

  /** The placeholder `createMockProcessedImage` writes: a white image of the target size, BMP only for the "bmp" format. */
  function MockImage(s: Settings): (f: FileEntry)
    ensures f.ImageFile? && f.picture == Blank("white")
    ensures f.width == s.width.GetOr(DefaultWidth) && f.height == s.height.GetOr(DefaultHeight)
    ensures f.encoding == "BMP" <==> s.format == Some("bmp")
    ensures f.encoding != "BMP" ==> f.encoding == "PNG"
  {
    ImageFile(TargetWidth(s), TargetHeight(s), if s.format.GetOr(DefaultFormat) == "bmp" then "BMP" else "PNG", Blank("white"))
  }

  /** `__invoke`: the result (output path or exception) and the disk afterwards. */
  function Run(s: Settings, w: World, fake: bool, b: Backend, payload: Value): (out: (Result<string, ProcessingException>, World))
    ensures out.0.Failure? ==> out.1 == w
    ensures out.0.Success? ==>
      && out.0.value == OutputPathFor(s, ExtractImagePath(payload))
      && ExtractImagePath(payload) in w.files
      && out.0.value in out.1.files
      && out.1 == w.(files := w.files[out.0.value := out.1.files[out.0.value]])
  {
    var path := ExtractImagePath(payload);
    if path !in w.files then (Failure(ProcessingException(MissingFileMessage + path)), w)
    else if fake then
      var out := OutputPathFor(s, path);
      (Success(out), w.(files := w.files[out := MockImage(s)]))
    else
      match w.files[path]
      case Unreadable(reason) => (Failure(ProcessingException(ProcessingFailedMessage + reason)), w)
      case ImageFile(_, _, _, _) =>
        var out := OutputPathFor(s, path);
        (Success(out), w.(files := w.files[out := Encoded(Transformed(s, b, Decoded(w.files[path])))]))
  }

  /** A path that does not exist is rejected before anything else, in fake mode too, and the disk is left alone. */
  lemma RunRejectsMissingFile(s: Settings, w: World, fake: bool, b: Backend, payload: Value)
    requires ExtractImagePath(payload) !in w.files
    ensures Run(s, w, fake, b, payload) == (Failure(ProcessingException(MissingFileMessage + ExtractImagePath(payload))), w)
  {
  }

  /** In fake mode an existing input yields the output path, holding a white placeholder of the target size; nothing is decoded. */
  lemma RunFake(s: Settings, w: World, b: Backend, payload: Value)
    requires ExtractImagePath(payload) in w.files
    ensures var (r, w') := Run(s, w, true, b, payload);
      && r == Success(OutputPathFor(s, ExtractImagePath(payload)))
      && w'.files == w.files[r.value := MockImage(s)]
      && w'.files[r.value].width == s.width.GetOr(DefaultWidth)
      && w'.files[r.value].height == s.height.GetOr(DefaultHeight)
  {
  }

  /**
   * Outside fake mode, a decodable input is written to the output path at the
   * final size, whatever its own size; an undecodable one fails with the
   * decoder's message and writes nothing.
   */
  lemma {:induction false} RunWritesFinalSize(s: Settings, w: World, b: Backend, payload: Value)
    requires ExtractImagePath(payload) in w.files
    ensures var (r, w') := Run(s, w, false, b, payload);
      var input := w.files[ExtractImagePath(payload)];
      && (input.ImageFile? ==>
            r == Success(OutputPathFor(s, ExtractImagePath(payload)))
            && w'.files.Keys == w.files.Keys + {r.value}
            && (w'.files[r.value].width, w'.files[r.value].height) == FinalSize(s, b))
      && (input.Unreadable? ==> r == Failure(ProcessingException(ProcessingFailedMessage + input.reason)) && w' == w)
  {
  }

  /** Writes one picture element per table entry into a one-row palette image (the `for` loop of `setImageColormap`). */
  method PaletteRow(colors: seq<string>) returns (row: array<string>)
    ensures row[..] == colors
  {
    row := new string[|colors|](_ => "white");
    for i := 0 to |colors|
      invariant row[..i] == colors[..i]
    {
      row[i] := colors[i];
    }
  }

  class ImageStage {
    var format: Option<string>
    var width: Option<int>
    var height: Option<int>
    var colors: Option<int>
    var bitDepth: Option<int>
    var rotation: Option<int>
    var offsetX: Option<int>
    var offsetY: Option<int>
    var outputPath: Option<string>
    var colormap: Option<seq<string>>

    function Config(): Settings
      reads this
    {
      Settings(format, width, height, colors, bitDepth, rotation, offsetX, offsetY, outputPath, colormap)
    }

    constructor ()
      ensures Config() == Unset()
    {
      format, width, height, colors, bitDepth := None, None, None, None, None;
      rotation, offsetX, offsetY, outputPath, colormap := None, None, None, None, None;
    }

    method SetFormat(f: string)
      modifies this
      ensures Config() == old(Config()).(format := Some(f))
    {
      format := Some(f);
    }

    /** `getFormat`. */
    function GetFormat(): (f: Option<string>)
      reads this
      ensures f == Config().format
    {
      format
    }

    method SetWidth(w: int)
      modifies this
      ensures Config() == old(Config()).(width := Some(w))
    {
      width := Some(w);
    }

    method SetHeight(h: int)
      modifies this
      ensures Config() == old(Config()).(height := Some(h))
    {
      height := Some(h);
    }

    method SetColors(n: int)
      modifies this
      ensures Config() == old(Config()).(colors := Some(n))
    {
      colors := Some(n);
    }

    method SetBitDepth(d: int)
      modifies this
      ensures Config() == old(Config()).(bitDepth := Some(d))
    {
      bitDepth := Some(d);
    }

    method SetRotation(degrees: int)
      modifies this
      ensures Config() == old(Config()).(rotation := Some(degrees))
    {
      rotation := Some(degrees);
    }

    method SetOffsetX(offset: int)
      modifies this
      ensures Config() == old(Config()).(offsetX := Some(offset))
    {
      offsetX := Some(offset);
    }

    method SetOffsetY(offset: int)
      modifies this
      ensures Config() == old(Config()).(offsetY := Some(offset))
    {
      offsetY := Some(offset);
    }

    method SetOutputPath(path: string)
      modifies this
      ensures Config() == old(Config()).(outputPath := Some(path))
    {
      outputPath := Some(path);
    }

    method SetColormap(table: seq<string>)
      modifies this
      ensures Config() == old(Config()).(colormap := Some(table))
    {
      colormap := Some(table);
    }

    /**
     * `configureFromModel`: fills the unset fields from the device's record;
     * when the device has no record, the lookup's exception escapes and the
     * stage is unchanged.
     */
    method ConfigureFromModel(m: DM.Model, catalog: MD.Catalog) returns (r: Outcome<ProcessingException>)
      modifies this
      ensures r.Pass? <==> m.GetData(catalog).Success?
      ensures r.Pass? ==> Config() == Configured(old(Config()), m.GetData(catalog).value)
      ensures r.Fail? ==> Config() == old(Config()) && r.error == m.GetData(catalog).error
    {
      var found := m.GetData(catalog);
      if found.Failure? {
        return Fail(found.error);
      }
      FillFrom(found.value);
      return Pass;
    }

    /** The body of `configureFromModel` once the record is found: each unset field is filled in turn. */
    method FillFrom(data: MD.ModelData)
      modifies this
      ensures Config() == Configured(old(Config()), data)
    {
      FillSizeFrom(data);
      FillPlacementFrom(data);
    }

    /** The first half of `configureFromModel`'s fill: width, height, colours and bit depth. */
    method FillSizeFrom(data: MD.ModelData)
      modifies this
      ensures Config() == old(Config()).(
        width := Configured(old(Config()), data).width,
        height := Configured(old(Config()), data).height,
        colors := Configured(old(Config()), data).colors,
        bitDepth := Configured(old(Config()), data).bitDepth)
    {
      if width.None? {
        width := Some(if data.width > 0 then data.width else DefaultWidth);
      }
      if height.None? {
        height := Some(data.height);
      }
      if colors.None? {
        colors := Some(data.colors);
      }
      if bitDepth.None? {
        bitDepth := Some(data.bitDepth);
      }
    }

    /** The second half of `configureFromModel`'s fill: rotation, offsets and format. */
    method FillPlacementFrom(data: MD.ModelData)
      modifies this
      ensures Config() == old(Config()).(
        rotation := Configured(old(Config()), data).rotation,
        offsetX := Configured(old(Config()), data).offsetX,
        offsetY := Configured(old(Config()), data).offsetY,
        format := Configured(old(Config()), data).format)
    {
      if rotation.None? {
        rotation := Some(data.rotation);
      }
      if offsetX.None? {
        offsetX := Some(data.offsetX);
      }
      if offsetY.None? {
        offsetY := Some(data.offsetY);
      }
      if format.None? {
        format := Some(FormatFromMimeType(data.mimeType));
      }
    }

    /** `__invoke`: checks the input exists, then writes a placeholder (fake mode) or the transformed image. */
    method Invoke(payload: Value, fs: FileSystem, mode: FakeMode, b: Backend) returns (r: Result<string, ProcessingException>)
      modifies fs
      ensures (r, fs.State()) == Run(Config(), old(fs.State()), mode.isFake, b, payload)
    {
      var path := ExtractImagePath(payload);
      if !fs.Exists(path) {
        return Failure(ProcessingException(MissingFileMessage + path));
      }
      if mode.IsFake() {
        var out := CreateMockProcessedImage(path, fs);
        return Success(out);
      }
      var decoded := Open(b, fs, path);
      if decoded.Failure? {
        return Failure(ProcessingException(ProcessingFailedMessage + decoded.error));
      }
      var img := decoded.value;
      ApplyTransformations(img);
      var out := WriteImage(path, img, fs);
      return Success(out);
    }

    /** `applyTransformations`, step by step on the Imagick object. */
    method ApplyTransformations(img: Image)
      modifies img
      ensures img.State() == Transformed(Config(), img.backend, old(img.State()))
    {
      Resize(img);
      Offset(img);
      Rotate(img);
      ApplyColormap(img);
      Quantize(img);
      img.SetDepth(bitDepth.GetOr(DefaultBitDepth));
      var f := format.GetOr(DefaultFormat);
      if f == "bmp" {
        img.SetFormat("BMP3");
      } else {
        img.SetFormat(Upper(FormatFromMimeType(f)));
      }
      img.Strip();
    }

    method Resize(img: Image)
      modifies img
      ensures img.State() == AfterResize(Config(), img.backend, old(img.State()))
    {
      var targetWidth := width.GetOr(DefaultWidth);
      var targetHeight := height.GetOr(DefaultHeight);
      if targetWidth != img.width || targetHeight != img.height {
        img.ResizeBestFit(targetWidth, targetHeight);
      }
      CreateCanvasWithCenteredImage(img, targetWidth, targetHeight);
    }

    method CreateCanvasWithCenteredImage(img: Image, canvasWidth: int, canvasHeight: int)
      modifies img
      ensures img.State() == Centered(old(img.State()), canvasWidth, canvasHeight)
    {
      if img.width == canvasWidth && img.height == canvasHeight {
        return;
      }
      var canvas := new Image.Canvas(img.backend, canvasWidth, canvasHeight, "white");
      canvas.SetFormat(img.format);
      var x := HalfRounded(canvasWidth - img.width);
      var y := HalfRounded(canvasHeight - img.height);
      canvas.CompositeOver(img, x, y);
      img.ReplaceWith(canvas);
    }

    method Offset(img: Image)
      modifies img
      ensures img.State() == AfterOffset(Config(), old(img.State()))
    {
      if offsetX == Some(0) && offsetY == Some(0) {
        return;
      }
      var canvas := new Image.Canvas(img.backend, img.width, img.height, "white");
      canvas.SetFormat(img.format);
      canvas.CompositeOver(img, offsetX.GetOr(DefaultOffsetX), offsetY.GetOr(DefaultOffsetY));
      img.ReplaceWith(canvas);
    }

    method Rotate(img: Image)
      modifies img
      ensures img.State() == AfterRotate(Config(), img.backend, old(img.State()))
    {
      if rotation != Some(0) {
        img.Rotate("white", rotation.GetOr(DefaultRotation));
      }
    }

    method ApplyColormap(img: Image)
      modifies img
      ensures img.State() == AfterColormap(Config(), old(img.State()))
    {
      var f := format.GetOr(DefaultFormat);
      var depth := bitDepth.GetOr(DefaultBitDepth);
      if f != "png" || depth > 2 {
        return;
      }
      var table := if colormap.Some? then colormap.value else if depth == 2 then TwoBitGrays else BlackAndWhite;
      SetImageColormap(img, table);
    }

    method SetImageColormap(img: Image, table: seq<string>)
      modifies img
      ensures img.State() == old(img.State()).(picture := Remapped(old(img.picture), table))
    {
      var row := PaletteRow(table);
      img.Remap(row[..]);
    }

    method Quantize(img: Image)
      modifies img
      ensures img.State() == AfterQuantize(Config(), old(img.State()))
    {
      img.SetOption("dither", "FloydSteinberg");
      img.Quantize(colors.GetOr(DefaultColors));
    }

    method WriteImage(inputPath: string, img: Image, fs: FileSystem) returns (out: string)
      modifies fs
      ensures out == OutputPathFor(Config(), inputPath)
      ensures fs.files == old(fs.files)[out := Encoded(img.State())]
      ensures fs.tempCount == old(fs.tempCount)
    {
      out := outputPath.GetOr(GeneratedOutputPath(format, inputPath));
      img.WriteTo(fs, out);
    }

    method CreateMockProcessedImage(inputPath: string, fs: FileSystem) returns (out: string)
      modifies fs
      ensures out == OutputPathFor(Config(), inputPath)
      ensures fs.files == old(fs.files)[out := MockImage(Config())]
      ensures fs.tempCount == old(fs.tempCount)
    {
      out := outputPath.GetOr(GeneratedOutputPath(format, inputPath));
      var f := format.GetOr(DefaultFormat);
      fs.Write(out, ImageFile(width.GetOr(DefaultWidth), height.GetOr(DefaultHeight), if f == "bmp" then "BMP" else "PNG", Blank("white")));
    }
  }
}

=== FILE: imagick.dfy ===
/**
 * The part of the Imagick extension the image stage drives: an image with a
 * size, its contents (a `Picture` term), an output format, a bit depth, wand
 * options and a "metadata stripped" flag. Each method changes exactly the
 * state the corresponding Imagick call changes.
 *
 * Two results are computed by the library and are not modelled: the size that
 * a best-fit resize picks, and the bounding box of a rotation by an angle that
 * is not a multiple of 90 degrees. A `Backend` supplies both.
 */
module Imagick {
  import opened Wrappers
  import opened Host

  /** The sizes the library computes itself. */
  datatype Backend = Backend(
    // (width, height, maxWidth, maxHeight) -> size picked by `resizeImage(..., bestfit: true)`
    bestFit: (int, int, int, int) -> (int, int),
    // (width, height, degrees) -> size of the image rotated by an angle that is not a right angle
    skewedSize: (int, int, int) -> (int, int))

  /** Everything observable about an image. */
  datatype ImageState = ImageState(
    width: int,
    height: int,
    picture: Picture,
    format: string,
    depth: Option<int>,
    options: map<string, string>,
    stripped: bool)

  /** The state of an image just read from a decodable file. */
  function Decoded(f: FileEntry): (st: ImageState)
    requires f.ImageFile?
    ensures st.width == f.width && st.height == f.height && st.picture == f.picture && st.format == f.encoding
    ensures st.depth.None? && st.options == map[] && !st.stripped
  {
    ImageState(f.width, f.height, f.picture, f.encoding, None, map[], false)
  }

  /** The file `writeImage` produces from an image. */
  function Encoded(st: ImageState): (f: FileEntry)
    ensures f.ImageFile? && Decoded(f) == st.(depth := None, options := map[], stripped := false)
  {
    ImageFile(st.width, st.height, st.format, st.picture)
  }

  /**
   * The size after `rotateImage` by `degrees`: unchanged by a half or full
   * turn, width and height swapped by a quarter turn, otherwise the backend's
   * bounding box.
   */
  function RotatedSize(b: Backend, width: int, height: int, degrees: int): (r: (int, int))
    ensures degrees % 180 == 0 ==> r == (width, height)
    ensures degrees % 180 == 90 ==> r == (height, width)
  {
    if degrees % 180 == 0 then (width, height)
    else if degrees % 90 == 0 then (height, width)
    else b.skewedSize(width, height, degrees)
  }

  class Image {
    var width: int
    var height: int
    var picture: Picture
    var format: string
    var depth: Option<int>
    var options: map<string, string>
    var stripped: bool
    const backend: Backend

    function State(): ImageState
      reads this
    {
      ImageState(width, height, picture, format, depth, options, stripped)
    }

    /** An image holding `st`. */
    constructor (b: Backend, st: ImageState)
      ensures State() == st && backend == b
    {
      width := st.width;
      height := st.height;
      picture := st.picture;
      format := st.format;
      depth := st.depth;
      options := st.options;
      stripped := st.stripped;
      backend := b;
    }

    /** `new Imagick; newImage($width, $height, $background)`: a plain canvas with no format yet. */
    constructor Canvas(b: Backend, width: int, height: int, background: string)
      ensures State() == ImageState(width, height, Blank(background), "", None, map[], false)
      ensures backend == b
    {
      this.width := width;
      this.height := height;
      picture := Blank(background);
      format := "";
      depth := None;
      options := map[];
      stripped := false;
      backend := b;
    }

    /** `resizeImage($w, $h, FILTER_LANCZOS, 1, true)`: scales to the backend's best fit within w x h. */
    method ResizeBestFit(maxWidth: int, maxHeight: int)
      modifies this
      ensures var size := backend.bestFit(old(width), old(height), maxWidth, maxHeight);
        State() == old(State()).(width := size.0, height := size.1, picture := Resampled(old(picture), size.0, size.1))
    {
      var size := backend.bestFit(width, height, maxWidth, maxHeight);
      width, height := size.0, size.1;
      picture := Resampled(picture, width, height);
    }

    /** `compositeImage($top, COMPOSITE_OVER, $x, $y)`: draws `top` over this image; the size is unchanged. */
    method CompositeOver(top: Image, x: int, y: int)
      requires top != this
      modifies this
      ensures State() == old(State()).(picture := Over(old(picture), top.picture, x, y))
    {
      picture := Over(picture, top.picture, x, y);
    }

    /** `clear(); readImageBlob($other->getImageBlob())`: this image now holds the other one's size, contents and format. */
    method ReplaceWith(other: Image)
      requires other != this
      modifies this
      ensures State() == old(State()).(width := other.width, height := other.height, picture := other.picture, format := other.format)
    {
      width, height, picture, format := other.width, other.height, other.picture, other.format;
    }

    /** `rotateImage($background, $degrees)`. */
    method Rotate(background: string, degrees: int)
      modifies this
      ensures var size := RotatedSize(backend, old(width), old(height), degrees);
        State() == old(State()).(width := size.0, height := size.1, picture := Rotated(old(picture), degrees, background))
    {
      var size := RotatedSize(backend, width, height, degrees);
      width, height := size.0, size.1;
      picture := Rotated(picture, degrees, background);
    }

    /** `remapImage($palette, DITHERMETHOD_FLOYDSTEINBERG)`. */
    method Remap(palette: seq<string>)
      modifies this
      ensures State() == old(State()).(picture := Remapped(old(picture), palette))
    {
      picture := Remapped(picture, palette);
    }

    /** `setOption($key, $value)`. */
    method SetOption(key: string, value: string)
      modifies this
      ensures State() == old(State()).(options := old(options)[key := value])
    {
      options := options[key := value];
    }

    /** `quantizeImage($colors, COLORSPACE_GRAY, 0, true, false)`. */
    method Quantize(colors: int)
      modifies this
      ensures State() == old(State()).(picture := Quantized(old(picture), colors))
    {
      picture := Quantized(picture, colors);
    }

    /** `setImageDepth($depth)`. */
    method SetDepth(d: int)
      modifies this
      ensures State() == old(State()).(depth := Some(d))
    {
      depth := Some(d);
    }

    /** `setFormat($f)` and `setImageFormat($f)`: the format the image is written in. */
    method SetFormat(f: string)
      modifies this
      ensures State() == old(State()).(format := f)
    {
      format := f;
    }

    /** `stripImage()`. */
    method Strip()
      modifies this
      ensures State() == old(State()).(stripped := true)
    {
      stripped := true;
    }

    /** `writeImage($path)`. */
    method WriteTo(fs: FileSystem, path: string)
      modifies fs
      ensures fs.files == old(fs.files)[path := Encoded(State())]
      ensures fs.tempCount == old(fs.tempCount)
    {
      fs.Write(path, ImageFile(width, height, format, picture));
    }
  }

  /** `new Imagick($path)` on an existing file: the decoded image, or the decoder's error message. */
  method Open(b: Backend, fs: FileSystem, path: string) returns (r: Result<Image, string>)
    requires path in fs.files
    ensures fs.files[path].Unreadable? ==> r == Failure(fs.files[path].reason)
    ensures fs.files[path].ImageFile? ==>
      r.Success? && fresh(r.value) && r.value.backend == b && r.value.State() == Decoded(fs.files[path])
  {
    match fs.files[path]
    case Unreadable(reason) =>
      return Failure(reason);
    case ImageFile(_, _, _, _) =>
      var img := new Image(b, Decoded(fs.files[path]));
      return Success(img);
  }
}

=== FILE: model_data.dfy ===
/**
 * The device catalog (src/Data/ModelData.php): one record per display model,
 * keyed by the model's name, built from the already-decoded `models.json`.
 */
module ModelData {
  import opened Wrappers
  import opened Exceptions
  import opened PhpArray

  /** One device profile. `scaleFactor` is a PHP float, kept here as an exact real. */
  datatype ModelData = ModelData(
    name: string,
    displayLabel: string,  // `label` (a reserved word in Dafny)
    description: string,
    width: int,
    height: int,
    colors: int,
    bitDepth: int,
    scaleFactor: real,
    rotation: int,
    mimeType: string,
    offsetX: int,
    offsetY: int,
    publishedAt: string,
    kind: string)

  /** One element of the `data` list as decoded from JSON; a missing key and a `null` value are both `None`. */
  datatype RawModel = RawModel(
    name: Option<string>,
    displayLabel: Option<string>,  // JSON key `label`
    description: Option<string>,
    width: Option<int>,
    height: Option<int>,
    colors: Option<int>,
    bit_depth: Option<int>,
    scale_factor: Option<real>,
    rotation: Option<int>,
    mime_type: Option<string>,
    offset_x: Option<int>,
    offset_y: Option<int>,
    published_at: Option<string>,
    kind: Option<string>)

  /** The top-level `data` entry of the decoded document. */
  datatype DataEntry = Missing | NotAList | Records(records: seq<RawModel>)

  /** The decoded document: either not an array at all, or an array holding a `data` entry. */
  datatype Document = NotAnArray | Document(data: DataEntry)

  /** The loaded catalog: name => record, in insertion order. */
  type Catalog = Dict<ModelData>

  const NotAnArrayMessage := "Invalid JSON structure: expected array"
  const MissingDataMessage := "Invalid models JSON structure: missing 'data' array"
  const MissingNameMessage := "Model data missing required 'name' field"

  function NotFoundMessage(name: string): string {
    "Model '" + name + "' not found in models data"
  }

  /** Builds the record for one named raw entry, taking the documented default for every absent field. */
  function FromRaw(raw: RawModel): (m: ModelData)
    requires raw.name.Some?
    ensures m.name == raw.name.value
  {
    ModelData(
      name := raw.name.value,
      displayLabel := raw.displayLabel.GetOr(""),
      description := raw.description.GetOr(""),
      width := raw.width.GetOr(0),
      height := raw.height.GetOr(0),
      colors := raw.colors.GetOr(0),
      bitDepth := raw.bit_depth.GetOr(0),
      scaleFactor := raw.scale_factor.GetOr(1.0),
      rotation := raw.rotation.GetOr(0),
      mimeType := raw.mime_type.GetOr("image/png"),
      offsetX := raw.offset_x.GetOr(0),
      offsetY := raw.offset_y.GetOr(0),
      publishedAt := raw.published_at.GetOr(""),
      kind := raw.kind.GetOr(""))
  }

  /** The raw entry that spells out every field of `m`. */
  function ToRaw(m: ModelData): RawModel {
    RawModel(Some(m.name), Some(m.displayLabel), Some(m.description), Some(m.width), Some(m.height),
             Some(m.colors), Some(m.bitDepth), Some(m.scaleFactor), Some(m.rotation), Some(m.mimeType),
             Some(m.offsetX), Some(m.offsetY), Some(m.publishedAt), Some(m.kind))
  }

  /** The raw entry that has a name and nothing else. */
  function NameOnly(name: string): RawModel {
    RawModel(Some(name), None, None, None, None, None, None, None, None, None, None, None, None, None)
  }

  /** A field present in the raw entry is taken as it is. */
  lemma FromRawKeepsPresentFields(m: ModelData)
    ensures FromRaw(ToRaw(m)) == m
  {
  }

  /** Absent fields take the defaults: text "", numbers 0, scale 1.0, MIME type "image/png". */
  lemma FromRawDefaults(name: string)
    ensures FromRaw(NameOnly(name)) == ModelData(name, "", "", 0, 0, 0, 0, 1.0, 0, "image/png", 0, 0, "", "")
  {
  }

  /**
   * Field by field, for any named entry: a field the entry gives is taken as it is, and a
   * field it leaves out takes the default that a name-only entry gets, whatever the other fields.
   */
  lemma FromRawFieldByField(raw: RawModel)
    requires raw.name.Some?
    ensures var m, d := FromRaw(raw), FromRaw(NameOnly(raw.name.value));
      && m.displayLabel == (if raw.displayLabel.Some? then raw.displayLabel.value else d.displayLabel)
      && m.description == (if raw.description.Some? then raw.description.value else d.description)
      && m.width == (if raw.width.Some? then raw.width.value else d.width)
      && m.height == (if raw.height.Some? then raw.height.value else d.height)
      && m.colors == (if raw.colors.Some? then raw.colors.value else d.colors)
      && m.bitDepth == (if raw.bit_depth.Some? then raw.bit_depth.value else d.bitDepth)
      && m.scaleFactor == (if raw.scale_factor.Some? then raw.scale_factor.value else d.scaleFactor)
      && m.rotation == (if raw.rotation.Some? then raw.rotation.value else d.rotation)
      && m.mimeType == (if raw.mime_type.Some? then raw.mime_type.value else d.mimeType)
      && m.offsetX == (if raw.offset_x.Some? then raw.offset_x.value else d.offsetX)
      && m.offsetY == (if raw.offset_y.Some? then raw.offset_y.value else d.offsetY)
      && m.publishedAt == (if raw.published_at.Some? then raw.published_at.value else d.publishedAt)
      && m.kind == (if raw.kind.Some? then raw.kind.value else d.kind)
  {
  }

  predicate AllNamed(rs: seq<RawModel>) {
    forall i :: 0 <= i < |rs| ==> rs[i].name.Some?
  }

  /** The assignments `$models[name] = record` that the loading loop performs, in order. */
  function Assignments(rs: seq<RawModel>): (ps: seq<(string, ModelData)>)
    requires AllNamed(rs)
    ensures |ps| == |rs|
    ensures forall i :: 0 <= i < |rs| ==> ps[i] == (rs[i].name.value, FromRaw(rs[i]))
  {
    seq(|rs|, i requires 0 <= i < |rs| && AllNamed(rs) => (rs[i].name.value, FromRaw(rs[i])))
  }

  /** What `loadFromJson` returns or throws for a decoded document. */
  function Load(doc: Document): (r: Result<Catalog, ProcessingException>)
    ensures r.Success? ==> r.value.Valid()
    ensures doc.NotAnArray? ==> r == Failure(ProcessingException(NotAnArrayMessage))
    ensures doc.Document? && !doc.data.Records? ==> r == Failure(ProcessingException(MissingDataMessage))
    ensures doc.Document? && doc.data.Records? ==>
              (r.Success? <==> AllNamed(doc.data.records)) &&
              (r.Failure? ==> r.error == ProcessingException(MissingNameMessage))
  {
    match doc
    case NotAnArray => Failure(ProcessingException(NotAnArrayMessage))
    case Document(Records(rs)) =>
      if AllNamed(rs) then Success(FromPairs(Assignments(rs)))
      else Failure(ProcessingException(MissingNameMessage))
    case Document(_) => Failure(ProcessingException(MissingDataMessage))
  }

  /** `loadFromJson`: fills the catalog record by record, aborting at the first record without a name. */
  method LoadFromJson(doc: Document) returns (r: Result<Catalog, ProcessingException>)
    ensures r == Load(doc)
  {
    if doc.NotAnArray? {
      return Failure(ProcessingException(NotAnArrayMessage));
    }
    if !doc.data.Records? {
      return Failure(ProcessingException(MissingDataMessage));
    }
    var rs := doc.data.records;
    var models: Catalog := Empty();
    var i := 0;
    while i < |rs|
      invariant 0 <= i <= |rs|
      invariant AllNamed(rs[..i])
      invariant models == FromPairs(Assignments(rs[..i]))
    {
      if rs[i].name.None? {
        assert !AllNamed(rs);
        return Failure(ProcessingException(MissingNameMessage));
      }
      LoadStep(rs, i);
      models := models.Assign(rs[i].name.value, FromRaw(rs[i]));
      i := i + 1;
    }
    assert rs[..i] == rs;
    return Success(models);
  }

  /** One turn of the loading loop performs the next assignment. */
  lemma LoadStep(rs: seq<RawModel>, i: nat)
    requires i < |rs| && AllNamed(rs[..i]) && rs[i].name.Some?
    ensures AllNamed(rs[..i + 1])
    ensures FromPairs(Assignments(rs[..i + 1])) == FromPairs(Assignments(rs[..i])).Assign(rs[i].name.value, FromRaw(rs[i]))
  {
    var ps := Assignments(rs[..i + 1]);
    assert ps[..i] == Assignments(rs[..i]);
  }

  /** The catalog holds exactly the names of the records, each record under its own name. */
  lemma {:induction false} LoadKeyedByName(rs: seq<RawModel>)
    requires AllNamed(rs)
    ensures Load(Document(Records(rs))).Success?
    ensures var c := Load(Document(Records(rs))).value;
      && (forall n :: n in c.entries <==> exists i :: 0 <= i < |rs| && rs[i].name == Some(n))
      && (forall n :: n in c.entries ==> c.entries[n].name == n)
  {
    var ps := Assignments(rs);
    var c := FromPairs(ps);
    forall n
      ensures n in c.entries <==> exists i :: 0 <= i < |rs| && rs[i].name == Some(n)
    {
      if n in c.entries {
        var i :| 0 <= i < |ps| && KeysOf(ps)[i] == n;
        assert rs[i].name == Some(n);
      }
      if exists i :: 0 <= i < |rs| && rs[i].name == Some(n) {
        var i :| 0 <= i < |rs| && rs[i].name == Some(n);
        assert KeysOf(ps)[i] == n;
      }
    }
    forall n | n in c.entries
      ensures c.entries[n].name == n
    {
      FromPairsValueFrom(ps, n);
    }
  }

  /** When a name occurs more than once, the last record with that name is the one kept. */
  lemma LoadLastDuplicateWins(rs: seq<RawModel>, i: nat)
    requires AllNamed(rs) && i < |rs|
    requires forall j :: i < j < |rs| ==> rs[j].name != rs[i].name
    ensures Load(Document(Records(rs))).Success?
    ensures var c := Load(Document(Records(rs))).value;
      rs[i].name.value in c.entries && c.entries[rs[i].name.value] == FromRaw(rs[i])
  {
    FromPairsLastWins(Assignments(rs), i);
  }

  /** Names are listed in the order in which they first occur among the records. */
  lemma LoadNamesInFirstOccurrenceOrder(rs: seq<RawModel>, a: nat, b: nat)
    requires AllNamed(rs)
    requires a < b < |GetAllNames(Load(Document(Records(rs))).value)|
    ensures var names := GetAllNames(Load(Document(Records(rs))).value);
      && names[a] in KeysOf(Assignments(rs)) && names[b] in KeysOf(Assignments(rs))
      && FirstIndex(Assignments(rs), names[a]) < FirstIndex(Assignments(rs), names[b])
  {
    FromPairsKeyOrder(Assignments(rs), a, b);
  }

  /** `getByName`: the record stored under `name`, or the not-found exception. */
  function GetByName(c: Catalog, name: string): (r: Result<ModelData, ProcessingException>)
    ensures r.Success? <==> name in c.entries
    ensures r.Success? ==> r.value == c.entries[name]
    ensures r.Failure? ==> r.error.message == NotFoundMessage(name)
  {
    if name in c.entries then Success(c.entries[name]) else Failure(ProcessingException(NotFoundMessage(name)))
  }

  /** Looking a name up in a loaded catalog finds a record of that name exactly when one was loaded. */
  lemma GetByNameAfterLoad(rs: seq<RawModel>, name: string)
    requires AllNamed(rs)
    ensures var r := GetByName(Load(Document(Records(rs))).value, name);
      && (r.Success? <==> exists i :: 0 <= i < |rs| && rs[i].name == Some(name))
      && (r.Success? ==> r.value.name == name)
  {
    LoadKeyedByName(rs);
  }

  /** `getByKind`: the records of the given kind, keyed and ordered as in the catalog. */
  function GetByKind(c: Catalog, kind: string): (r: Catalog)
    requires c.Valid()
    ensures r.Valid()
    ensures forall n :: n in r.entries <==> n in c.entries && c.entries[n].kind == kind
    ensures forall n :: n in r.entries ==> r.entries[n] == c.entries[n]
    ensures IsSubsequence(r.keys, c.keys)
  {
    c.Filter((m: ModelData) => m.kind == kind)
  }

  /** `getAllNames`: every name of the catalog once, in insertion order. */
  function GetAllNames(c: Catalog): (names: seq<string>)
    requires c.Valid()
    ensures Distinct(names)
    ensures forall n :: n in names <==> n in c.entries
  {
    c.keys
  }
}

=== FILE: palette_data.dfy ===
/**
 * The palette catalog (src/Data/PaletteData.php): named colour tables keyed by
 * id, built from the already-decoded `palettes.json`.
 */
module PaletteData {
  import opened Wrappers
  import opened Exceptions
  import opened PhpArray

  /** One palette: `colors` is absent for a pure grey ramp of `grays` levels. */
  datatype PaletteData = PaletteData(
    id: string,
    name: string,
    grays: int,
    colors: Option<seq<string>>,
    frameworkClass: string)

  /** One element of the `data` list as decoded from JSON; a missing key and a `null` value are both `None`. */
  datatype RawPalette = RawPalette(
    id: Option<string>,
    name: Option<string>,
    grays: Option<int>,
    colors: Option<seq<string>>,
    framework_class: Option<string>)

  datatype DataEntry = Missing | NotAList | Records(records: seq<RawPalette>)

  datatype Document = NotAnArray | Document(data: DataEntry)

  /** The loaded catalog: id => palette, in insertion order. */
  type Catalog = Dict<PaletteData>

  const NotAnArrayMessage := "Invalid JSON structure: expected array"
  const MissingDataMessage := "Invalid palettes JSON structure: missing 'data' array"
  const MissingIdMessage := "Palette data missing required 'id' field"

  /** Builds the palette for one raw entry that has an id, with defaults for absent fields. */
  function FromRaw(raw: RawPalette): (p: PaletteData)
    requires raw.id.Some?
    ensures p.id == raw.id.value
  {
    PaletteData(
      id := raw.id.value,
      name := raw.name.GetOr(""),
      grays := raw.grays.GetOr(0),
      colors := raw.colors,
      frameworkClass := raw.framework_class.GetOr(""))
  }

  /** An entry that gives every field yields exactly those fields; an id-only entry gets "", 0, no colour list and "". */
  lemma FromRawFields(id: string, p: PaletteData)
    ensures FromRaw(RawPalette(Some(p.id), Some(p.name), Some(p.grays), p.colors, Some(p.frameworkClass))) == p
    ensures FromRaw(RawPalette(Some(id), None, None, None, None)) == PaletteData(id, "", 0, None, "")
  {
  }

  /**
   * Field by field, for any entry with an id: a field the entry gives is taken as it is, and a
   * field it leaves out takes the default that an id-only entry gets, whatever the other fields.
   */
  lemma FromRawFieldByField(raw: RawPalette)
    requires raw.id.Some?
    ensures var p, d := FromRaw(raw), FromRaw(RawPalette(raw.id, None, None, None, None));
      && p.name == (if raw.name.Some? then raw.name.value else d.name)
      && p.grays == (if raw.grays.Some? then raw.grays.value else d.grays)
      && p.colors == (if raw.colors.Some? then raw.colors else d.colors)
      && p.frameworkClass == (if raw.framework_class.Some? then raw.framework_class.value else d.frameworkClass)
  {
  }

  predicate AllHaveId(rs: seq<RawPalette>) {
    forall i :: 0 <= i < |rs| ==> rs[i].id.Some?
  }

  /** The assignments `$palettes[id] = palette` that the loading loop performs, in order. */
  function Assignments(rs: seq<RawPalette>): (ps: seq<(string, PaletteData)>)
    requires AllHaveId(rs)
    ensures |ps| == |rs|
    ensures forall i :: 0 <= i < |rs| ==> ps[i] == (rs[i].id.value, FromRaw(rs[i]))
  {
    seq(|rs|, i requires 0 <= i < |rs| && AllHaveId(rs) => (rs[i].id.value, FromRaw(rs[i])))
  }

  /** What `loadFromJson` returns or throws for a decoded document. */
  function Load(doc: Document): (r: Result<Catalog, ProcessingException>)
    ensures r.Success? ==> r.value.Valid()
    ensures doc.NotAnArray? ==> r == Failure(ProcessingException(NotAnArrayMessage))
    ensures doc.Document? && !doc.data.Records? ==> r == Failure(ProcessingException(MissingDataMessage))
    ensures doc.Document? && doc.data.Records? ==>
              (r.Success? <==> AllHaveId(doc.data.records)) &&
              (r.Failure? ==> r.error == ProcessingException(MissingIdMessage))
  {
    match doc
    case NotAnArray => Failure(ProcessingException(NotAnArrayMessage))
    case Document(Records(rs)) =>
      if AllHaveId(rs) then Success(FromPairs(Assignments(rs)))
      else Failure(ProcessingException(MissingIdMessage))
    case Document(_) => Failure(ProcessingException(MissingDataMessage))
  }

  /** `loadFromJson`: fills the catalog palette by palette, aborting at the first entry without an id. */
  method LoadFromJson(doc: Document) returns (r: Result<Catalog, ProcessingException>)
    ensures r == Load(doc)
  {
    if doc.NotAnArray? {
      return Failure(ProcessingException(NotAnArrayMessage));
    }
    if !doc.data.Records? {
      return Failure(ProcessingException(MissingDataMessage));
    }
    var rs := doc.data.records;
    var palettes: Catalog := Empty();
    var i := 0;
    while i < |rs|
      invariant 0 <= i <= |rs|
      invariant AllHaveId(rs[..i])
      invariant palettes == FromPairs(Assignments(rs[..i]))
    {
      if rs[i].id.None? {
        assert !AllHaveId(rs);
        return Failure(ProcessingException(MissingIdMessage));
      }
      LoadStep(rs, i);
      palettes := palettes.Assign(rs[i].id.value, FromRaw(rs[i]));
      i := i + 1;
    }
    assert rs[..i] == rs;
    return Success(palettes);
  }

  /** One turn of the loading loop performs the next assignment. */
  lemma LoadStep(rs: seq<RawPalette>, i: nat)
    requires i < |rs| && AllHaveId(rs[..i]) && rs[i].id.Some?
    ensures AllHaveId(rs[..i + 1])
    ensures FromPairs(Assignments(rs[..i + 1])) == FromPairs(Assignments(rs[..i])).Assign(rs[i].id.value, FromRaw(rs[i]))
  {
    var ps := Assignments(rs[..i + 1]);
    assert ps[..i] == Assignments(rs[..i]);
  }

  /** The catalog holds exactly the ids of the entries, each palette under its own id. */
  lemma {:induction false} LoadKeyedById(rs: seq<RawPalette>)
    requires AllHaveId(rs)
    ensures Load(Document(Records(rs))).Success?
    ensures var c := Load(Document(Records(rs))).value;
      && (forall id :: id in c.entries <==> exists i :: 0 <= i < |rs| && rs[i].id == Some(id))
      && (forall id :: id in c.entries ==> c.entries[id].id == id)
  {
    var ps := Assignments(rs);
    var c := FromPairs(ps);
    forall id
      ensures id in c.entries <==> exists i :: 0 <= i < |rs| && rs[i].id == Some(id)
    {
      if id in c.entries {
        var i :| 0 <= i < |ps| && KeysOf(ps)[i] == id;
        assert rs[i].id == Some(id);
      }
      if exists i :: 0 <= i < |rs| && rs[i].id == Some(id) {
        var i :| 0 <= i < |rs| && rs[i].id == Some(id);
        assert KeysOf(ps)[i] == id;
      }
    }
    forall id | id in c.entries
      ensures c.entries[id].id == id
    {
      FromPairsValueFrom(ps, id);
    }
  }

  /** When an id occurs more than once, the last entry with that id is the one kept. */
  lemma LoadLastDuplicateWins(rs: seq<RawPalette>, i: nat)
    requires AllHaveId(rs) && i < |rs|
    requires forall j :: i < j < |rs| ==> rs[j].id != rs[i].id
    ensures Load(Document(Records(rs))).Success?
    ensures var c := Load(Document(Records(rs))).value;
      rs[i].id.value in c.entries && c.entries[rs[i].id.value] == FromRaw(rs[i])
  {
    FromPairsLastWins(Assignments(rs), i);
  }

  /** Ids are listed in the order in which they first occur among the entries. */
  lemma LoadIdsInFirstOccurrenceOrder(rs: seq<RawPalette>, a: nat, b: nat)
    requires AllHaveId(rs)
    requires a < b < |GetAllIds(Load(Document(Records(rs))).value)|
    ensures var ids := GetAllIds(Load(Document(Records(rs))).value);
      && ids[a] in KeysOf(Assignments(rs)) && ids[b] in KeysOf(Assignments(rs))
      && FirstIndex(Assignments(rs), ids[a]) < FirstIndex(Assignments(rs), ids[b])
  {
    FromPairsKeyOrder(Assignments(rs), a, b);
  }

  /** `getById`: the palette with that id, or `null` (not an exception) when there is none. */
  function GetById(c: Catalog, id: string): (r: Option<PaletteData>)
    ensures r.Some? <==> id in c.entries
    ensures r.Some? ==> r.value == c.entries[id]
  {
    if id in c.entries then Some(c.entries[id]) else None
  }

  /** In a loaded catalog, `getById` finds a palette with the requested id exactly when one was loaded. */
  lemma GetByIdAfterLoad(rs: seq<RawPalette>, id: string)
    requires AllHaveId(rs)
    ensures var r := GetById(Load(Document(Records(rs))).value, id);
      && (r.Some? <==> exists i :: 0 <= i < |rs| && rs[i].id == Some(id))
      && (r.Some? ==> r.value.id == id)
  {
    LoadKeyedById(rs);
  }

  /** `getAllIds`: every id of the catalog once, in insertion order. */
  function GetAllIds(c: Catalog): (ids: seq<string>)
    requires c.Valid()
    ensures Distinct(ids)
    ensures forall id :: id in ids <==> id in c.entries
  {
    c.keys
  }
}

=== FILE: paths.dfy ===
/**
 * PHP's `pathinfo()` on a POSIX path, as far as the output-path builder of the
 * image stage uses it: `dirname` (absent only for the empty path), `basename`,
 * `extension` (absent when the base name holds no dot) and `filename`.
 */
module Paths {
  import opened Wrappers

  /** `s` without its trailing run of slashes. */
  function TrimSlashes(s: string): (r: string)
    ensures r <= s
    ensures r == [] || r[|r| - 1] != '/'
    ensures forall i :: |r| <= i < |s| ==> s[i] == '/'
  {
    if s == [] || s[|s| - 1] != '/' then s else TrimSlashes(s[..|s| - 1])
  }

  /** `s` without its trailing run of non-slash characters (its last path component). */
  function DropComponent(s: string): (r: string)
    ensures r <= s
    ensures r == [] || r[|r| - 1] == '/'
    ensures forall i :: |r| <= i < |s| ==> s[i] != '/'
  {
    if s == [] || s[|s| - 1] == '/' then s else DropComponent(s[..|s| - 1])
  }

  /** Position of the last dot in `s`, if any. */
  function LastDot(s: string): (r: Option<nat>)
    ensures r.None? <==> '.' !in s
    ensures r.Some? ==> r.value < |s| && s[r.value] == '.' && forall j :: r.value < j < |s| ==> s[j] != '.'
  {
    if s == [] then None
    else if s[|s| - 1] == '.' then Some(|s| - 1)
    else
      var r := LastDot(s[..|s| - 1]);
      assert s == s[..|s| - 1] + [s[|s| - 1]];
      r
  }

  /**
   * `pathinfo($p)['dirname']`: trailing slashes and then the last component
   * and the slashes before it are removed; a path of slashes only gives "/",
   * a single component gives ".", and the empty path has no entry.
   */
  function Dirname(path: string): (r: Option<string>)
    ensures r.None? <==> path == []
    ensures r.Some? ==> r.value != []
    ensures r.Some? && r.value != "." && r.value != "/" ==> r.value < path && r.value[|r.value| - 1] != '/'
  {
    if path == [] then None
    else
      var a := TrimSlashes(path);
      if a == [] then Some("/")
      else
        var b := DropComponent(a);
        if b == [] then Some(".")
        else
          var c := TrimSlashes(b);
          if c == [] then Some("/") else Some(c)
  }

  /** `pathinfo($p)['basename']`: the last component once trailing slashes are removed. */
  function Basename(path: string): (r: string)
    ensures '/' !in r
  {
    var a := TrimSlashes(path);
    a[|DropComponent(a)|..]
  }

  /** `pathinfo($p)['extension']`: what follows the last dot of the base name; absent when there is no dot. */
  function Extension(path: string): (r: Option<string>)
    ensures r.None? <==> '.' !in Basename(path)
    ensures r.Some? ==> '.' !in r.value && '/' !in r.value
  {
    var base := Basename(path);
    match LastDot(base)
    case None => None
    case Some(i) => Some(base[i + 1..])
  }

  /** `pathinfo($p)['filename']`: the base name up to its last dot, or all of it. */
  function Filename(path: string): (r: string)
    ensures '/' !in r
    ensures Extension(path).None? ==> r == Basename(path)
    ensures Extension(path).Some? ==> r + "." + Extension(path).value == Basename(path)
  {
    var base := Basename(path);
    match LastDot(base)
    case None => base
    case Some(i) =>
      assert base == base[..i] + "." + base[i + 1..];
      base[..i]
  }

  /** A name ending in ".e" where `e` has no dot: the dot that precedes `e` is the last one. */
  lemma LastDotOfName(n: string, e: string)
    requires '.' !in e
    ensures LastDot(n + "." + e) == Some(|n|)
  {
    assert (n + "." + e)[|n|] == '.';
  }

  /** A path `d/f`, with `d` not ending in a slash and `f` a non-empty slash-free name, has directory `d` and base name `f`. */
  lemma {:induction false} PathinfoOfDirAndName(d: string, f: string)
    requires d != [] && d[|d| - 1] != '/'
    requires f != [] && '/' !in f
    ensures Dirname(d + "/" + f) == Some(d)
    ensures Basename(d + "/" + f) == f
  {
    var path := d + "/" + f;
    assert TrimSlashes(path) == path;
    SplitAtLastSlash(d + "/", f);
    assert path[|d + "/"|..] == f;
    assert (d + "/")[..|d|] == d;
    assert TrimSlashes(d) == d;
    assert TrimSlashes(d + "/") == d;
  }

  /**
   * A path of the ordinary shape `d/n.e` splits into its parts: the directory
   * `d` (not ending in a slash), the file name `n` and the extension `e`.
   */
  lemma {:induction false} PathinfoOfSimplePath(d: string, n: string, e: string)
    requires d != [] && d[|d| - 1] != '/'
    requires '/' !in n && '/' !in e && '.' !in e
    ensures Dirname(d + "/" + n + "." + e) == Some(d)
    ensures Basename(d + "/" + n + "." + e) == n + "." + e
    ensures Extension(d + "/" + n + "." + e) == Some(e)
    ensures Filename(d + "/" + n + "." + e) == n
  {
    var f := n + "." + e;
    assert '/' !in f by {
      forall i | 0 <= i < |f| ensures f[i] != '/' {
        if i < |n| { assert f[i] == n[i]; } else if i > |n| { assert f[i] == e[i - |n| - 1]; }
      }
    }
    PathinfoOfDirAndName(d, f);
    assert d + "/" + f == d + "/" + n + "." + e;
    LastDotOfName(n, e);
  }

  /** A path with no slash at all is its own base name and lies in the directory ".". */
  lemma {:induction false} PathinfoOfBareName(f: string)
    requires f != [] && '/' !in f
    ensures Dirname(f) == Some(".")
    ensures Basename(f) == f
  {
    assert TrimSlashes(f) == f;
    SplitAtLastSlash([], f);
    assert [] + f == f;
  }

  /** Dropping the last component of `p + f`, where `f` has no slash and `p` is empty or ends in one, leaves `p`. */
  lemma {:induction false} SplitAtLastSlash(p: string, f: string)
    requires p == [] || p[|p| - 1] == '/'
    requires '/' !in f
    ensures DropComponent(p + f) == p
    decreases |f|
  {
    if f == [] {
      assert p + f == p;
    } else {
      var g := f[..|f| - 1];
      assert (p + f)[..|p + f| - 1] == p + g;
      assert (p + f)[|p + f| - 1] == f[|f| - 1];
      assert '/' !in g by {
        forall i | 0 <= i < |g| ensures g[i] != '/' { assert g[i] == f[i]; }
      }
      SplitAtLastSlash(p, g);
    }
  }
}

=== FILE: php_array.dfy ===
/**
 * PHP's string-keyed arrays: an insertion-ordered dictionary.
 *
 * Assigning `$a[$k] = $v` replaces the value of an existing key in place (the
 * key keeps its position) and appends a new key at the end; `array_keys` and
 * `foreach` follow that order; `array_filter` keeps the surviving keys in their
 * original order.
 */
module PhpArray {

  /** No element occurs twice. */
  predicate Distinct<T(==)>(s: seq<T>) {
    forall i, j :: 0 <= i < j < |s| ==> s[i] != s[j]
  }

  /** `r` is `s` with some elements left out, the rest kept in order. */
  ghost predicate IsSubsequence<T>(r: seq<T>, s: seq<T>)
    decreases |s|
  {
    if r == [] then true
    else if s == [] then false
    else (r[0] == s[0] && IsSubsequence(r[1..], s[1..])) || IsSubsequence(r, s[1..])
  }

  /** The elements of `s` that satisfy `keep`, in their order in `s` (`array_filter` on a list). */
  function FilterSeq<T(==,!new)>(s: seq<T>, keep: T -> bool): (r: seq<T>)
    ensures forall x :: x in r <==> x in s && keep(x)
    ensures IsSubsequence(r, s)
    ensures Distinct(s) ==> Distinct(r)
    decreases |s|
  {
    if s == [] then []
    else
      var rest := FilterSeq(s[1..], keep);
      if keep(s[0]) then [s[0]] + rest else rest
  }

  /** The keys of a list of (key, value) assignments, in assignment order (repeats kept). */
  function KeysOf<V>(pairs: seq<(string, V)>): (ks: seq<string>)
    ensures |ks| == |pairs|
    ensures forall i :: 0 <= i < |pairs| ==> ks[i] == pairs[i].0
  {
    seq(|pairs|, i requires 0 <= i < |pairs| => pairs[i].0)
  }

  /** Position of the first assignment to key `k`. */
  ghost function FirstIndex<V>(pairs: seq<(string, V)>, k: string): (i: nat)
    requires k in KeysOf(pairs)
    ensures i < |pairs| && pairs[i].0 == k
    ensures forall j :: 0 <= j < i ==> pairs[j].0 != k
    decreases |pairs|
  {
    if pairs[0].0 == k then 0
    else
      assert k in KeysOf(pairs[1..]) by {
        var j :| 0 <= j < |pairs| && KeysOf(pairs)[j] == k;
        assert KeysOf(pairs[1..])[j - 1] == k;
      }
      1 + FirstIndex(pairs[1..], k)
  }

  /** An insertion-ordered dictionary: `keys` lists the keys of `entries` once each, in insertion order. */
  datatype Dict<V> = Dict(keys: seq<string>, entries: map<string, V>) {

    ghost predicate Valid() {
      Distinct(keys) && forall k :: k in entries <==> k in keys
    }

    /** `$a[$k] = $v`. */
    function Assign(k: string, v: V): (d: Dict<V>)
      requires Valid()
      ensures d.Valid()
      ensures d.entries == entries[k := v]
      ensures k in entries ==> d.keys == keys
      ensures k !in entries ==> d.keys == keys + [k]
    {
      if k in entries then Dict(keys, entries[k := v]) else Dict(keys + [k], entries[k := v])
    }

    /** `array_filter($a, $keep)`: the entries whose value satisfies `keep`, keys and order preserved. */
    function Filter(keep: V -> bool): (r: Dict<V>)
      requires Valid()
      ensures r.Valid()
      ensures forall k :: k in r.entries <==> k in entries && keep(entries[k])
      ensures forall k :: k in r.entries ==> r.entries[k] == entries[k]
      ensures IsSubsequence(r.keys, keys)
    {
      var ks := FilterSeq(keys, k => k in entries && keep(entries[k]));
      Dict(ks, map k | k in ks :: entries[k])
    }

    /** The (key, value) pairs in the order `foreach` visits them. */
    function Pairs(): (ps: seq<(string, V)>)
      requires Valid()
      ensures |ps| == |keys|
      ensures forall i :: 0 <= i < |keys| ==> ps[i] == (keys[i], entries[keys[i]])
    {
      seq(|keys|, i requires 0 <= i < |keys| => (keys[i], entries[keys[i]]))
    }
  }

  function Empty<V>(): (d: Dict<V>)
    ensures d.Valid() && d.keys == [] && d.entries == map[]
  {
    Dict([], map[])
  }

  /**
   * The array built by performing the assignments `$a[k] = v` of `pairs` in
   * order, starting from `[]` (the body of a `foreach` that fills an array).
   */
  function FromPairs<V>(pairs: seq<(string, V)>): (d: Dict<V>)
    ensures d.Valid()
    ensures forall k :: k in d.entries <==> k in KeysOf(pairs)
    decreases |pairs|
  {
    if pairs == [] then Empty()
    else
      var n := |pairs| - 1;
      assert KeysOf(pairs) == KeysOf(pairs[..n]) + [pairs[n].0];
      FromPairs(pairs[..n]).Assign(pairs[n].0, pairs[n].1)
  }

  /** A later assignment to the same key wins: each key holds the value of its last assignment. */
  lemma {:induction false} FromPairsLastWins<V>(pairs: seq<(string, V)>, i: nat)
    requires i < |pairs|
    requires forall j :: i < j < |pairs| ==> pairs[j].0 != pairs[i].0
    ensures pairs[i].0 in FromPairs(pairs).entries
    ensures FromPairs(pairs).entries[pairs[i].0] == pairs[i].1
    decreases |pairs|
  {
    var n := |pairs| - 1;
    assert KeysOf(pairs)[i] == pairs[i].0;
    if i < n {
      FromPairsLastWins(pairs[..n], i);
    }
  }

  /** Every stored value was assigned to its key by one of the pairs. */
  lemma {:induction false} FromPairsValueFrom<V>(pairs: seq<(string, V)>, k: string)
    requires k in FromPairs(pairs).entries
    ensures exists i :: 0 <= i < |pairs| && pairs[i] == (k, FromPairs(pairs).entries[k])
    decreases |pairs|
  {
    var n := |pairs| - 1;
    if pairs[n].0 != k {
      FromPairsValueFrom(pairs[..n], k);
      var i :| 0 <= i < n && pairs[..n][i] == (k, FromPairs(pairs[..n]).entries[k]);
      assert pairs[i] == (k, FromPairs(pairs).entries[k]);
    } else {
      assert pairs[n] == (k, FromPairs(pairs).entries[k]);
    }
  }

  /** Keys are listed in the order of their first assignment; re-assigning a key does not move it. */
  lemma {:induction false} FromPairsKeyOrder<V>(pairs: seq<(string, V)>, a: nat, b: nat)
    requires a < b < |FromPairs(pairs).keys|
    ensures FromPairs(pairs).keys[a] in KeysOf(pairs) && FromPairs(pairs).keys[b] in KeysOf(pairs)
    ensures FirstIndex(pairs, FromPairs(pairs).keys[a]) < FirstIndex(pairs, FromPairs(pairs).keys[b])
    decreases |pairs|
  {
    var d := FromPairs(pairs);
    var n := |pairs| - 1;
    var p := pairs[..n];
    var dp := FromPairs(p);
    var k := pairs[n].0;
    assert d == dp.Assign(k, pairs[n].1);
    assert d.keys[a] in d.entries && d.keys[b] in d.entries;
    if b < |dp.keys| {
      FromPairsKeyOrder(p, a, b);
      assert d.keys[a] == dp.keys[a] && d.keys[b] == dp.keys[b];
      FirstIndexInPrefix(pairs, n, dp.keys[a]);
      FirstIndexInPrefix(pairs, n, dp.keys[b]);
    } else {
      assert k !in dp.entries && d.keys[b] == k;
      assert dp.keys[a] in dp.entries;
      FirstIndexInPrefix(pairs, n, dp.keys[a]);
      assert k !in KeysOf(p);
      assert FirstIndex(pairs, k) == n by {
        forall j | 0 <= j < n ensures pairs[j].0 != k {
          assert KeysOf(p)[j] == pairs[j].0;
        }
      }
    }
  }

  /** The first assignment to a key that occurs in a prefix lies in that prefix. */
  lemma FirstIndexInPrefix<V>(pairs: seq<(string, V)>, n: nat, k: string)
    requires n <= |pairs|
    requires k in KeysOf(pairs[..n])
    ensures k in KeysOf(pairs)
    ensures FirstIndex(pairs, k) == FirstIndex(pairs[..n], k)
  {
    var i := FirstIndex(pairs[..n], k);
    assert KeysOf(pairs)[i] == k;
  }
}

=== FILE: php_value.dfy ===
/** PHP `mixed` values as they travel between pipeline stages, and PHP's `(string)` cast. */
module PhpValue {

  /** The PHP values a payload can hold (floats and objects are not modelled). */
  datatype Value =
    | Null
    | Bool(b: bool)
    | Int(i: int)
    | Str(s: string)
    | Arr(entries: map<string, Value>)

  /** Decimal digits of a natural number, most significant first. */
  function NatToDecimal(n: nat): (r: string)
    ensures |r| > 0
    ensures forall k :: 0 <= k < |r| ==> '0' <= r[k] <= '9'
    decreases n
  {
    var d := [(('0' as int) + n % 10) as char];
    if n < 10 then d else NatToDecimal(n / 10) + d
  }

  /** PHP's decimal rendering of an integer, as `(string) $i` produces it. */
  function IntToString(i: int): (r: string)
    ensures |r| > 0
    ensures i < 0 <==> r[0] == '-'
  {
    if i < 0 then "-" + NatToDecimal(-i) else NatToDecimal(i)
  }

  /** PHP's `(string)` cast: `true` is "1", `false` and `null` are "", an array is "Array". */
  function CastToString(v: Value): (r: string)
    ensures v.Str? ==> r == v.s
    ensures v.Null? || v == Bool(false) ==> r == ""
  {
    match v
    case Null => ""
    case Bool(b) => if b then "1" else ""
    case Int(i) => IntToString(i)
    case Str(s) => s
    case Arr(_) => "Array"
  }
}

=== FILE: pipeline.dfy ===
/**
 * The pipeline (src/TrmnlPipeline.php): an ordered list of stages, each
 * configured from the device model at the moment it is piped (if a model is
 * set by then), run one after the other on a payload that starts as `null`,
 * with any stage failure reported under one prefix.
 */
module TrmnlPipeline {
  import opened Wrappers
  import opened Exceptions
  import opened PhpValue
  import opened Host
  import opened FakeSwitch
  import Imagick
  import IS = ImageStage
  import BS = BrowserStage
  import MD = ModelData
  import DM = DeviceModel

  const ProcessingFailedMessage := "Pipeline processing failed: "

  /** A piped stage: one of the library's two stages, or any other invokable that maps a payload to a result. */
  datatype Stage =
    | ImageStep(image: IS.ImageStage)
    | BrowserStep(browser: BS.BrowserStage)
    | Invokable(invoke: Value -> Result<Value, ProcessingException>)

  /** What a stage does when the pipeline runs, given its settings at that time. */
  datatype StageView =
    | ImageView(imageSettings: IS.Settings)
    | BrowserView(browserSettings: BS.Settings, instance: Option<BS.Browsershot>)
    | InvokableView(run: Value -> Result<Value, ProcessingException>)

  /** The surroundings a run depends on: the fake switch, and the behaviour of Imagick and of the browser. */
  datatype Env = Env(fake: bool, backend: Imagick.Backend, renderer: BS.Renderer)

  ghost predicate ViewOk(v: StageView) {
    v.BrowserView? ==> v.browserSettings.options.Valid()
  }

  ghost predicate AllViewsOk(vs: seq<StageView>) {
    forall i :: 0 <= i < |vs| ==> ViewOk(vs[i])
  }

  /** One stage applied to the payload: its result and the disk afterwards. */
  function Step(v: StageView, payload: Value, w: World, env: Env): (out: (Result<Value, ProcessingException>, World))
    requires ViewOk(v)
    ensures w.files.Keys <= out.1.files.Keys && out.1.tempDir == w.tempDir && w.tempCount <= out.1.tempCount
    ensures v.InvokableView? ==> out.1 == w
  {
    match v
    case ImageView(s) =>
      var (r, w') := IS.Run(s, w, env.fake, env.backend, payload);
      (if r.Success? then Success(Str(r.value)) else Failure(r.error), w')
    case BrowserView(s, instance) =>
      var (r, w') := BS.Run(s, instance, w, env.fake, env.renderer);
      (if r.Success? then Success(Str(r.value)) else Failure(r.error), w')
    case InvokableView(run) => (run(payload), w)
  }

  /** The stages applied in order, each to the previous result, stopping at the first failure. */
  function Fold(vs: seq<StageView>, payload: Value, w: World, env: Env): (out: (Result<Value, ProcessingException>, World))
    requires AllViewsOk(vs)
    ensures vs == [] ==> out == (Success(payload), w)
    decreases |vs|
  {
    if vs == [] then (Success(payload), w)
    else
      var (r, w1) := Step(vs[0], payload, w, env);
      if r.Failure? then (r, w1) else Fold(vs[1..], r.value, w1, env)
  }

  /**
   * No stage deletes a file or changes the temporary directory, and the
   * temporary-name counter only grows; a pipeline of plain invokables leaves
   * the disk as it was.
   */
  lemma {:induction false} FoldKeepsFiles(vs: seq<StageView>, payload: Value, w: World, env: Env)
    requires AllViewsOk(vs)
    ensures var out := Fold(vs, payload, w, env);
      w.files.Keys <= out.1.files.Keys && out.1.tempDir == w.tempDir && w.tempCount <= out.1.tempCount
    ensures (forall i :: 0 <= i < |vs| ==> vs[i].InvokableView?) ==> Fold(vs, payload, w, env).1 == w
    decreases |vs|
  {
    if vs != [] {
      var (r, w1) := Step(vs[0], payload, w, env);
      if r.Success? {
        FoldKeepsFiles(vs[1..], r.value, w1, env);
      }
    }
  }

  /** `process()`'s report of a failure: the stage's message under the pipeline's prefix. */
  function Wrapped(r: Result<Value, ProcessingException>): (q: Result<Value, ProcessingException>)
    ensures r.Success? ==> q == r
    ensures r.Failure? ==> q == Failure(ProcessingException(ProcessingFailedMessage + r.error.message))
  {
    match r
    case Success(_) => r
    case Failure(e) => Failure(ProcessingException(ProcessingFailedMessage + e.message))
  }

  /**
   * Running two lists of stages one after the other is running their
   * concatenation: the second list starts from the first one's result and
   * disk, and never runs once the first has failed.
   */
  lemma {:induction false} FoldAppend(first: seq<StageView>, second: seq<StageView>, payload: Value, w: World, env: Env)
    requires AllViewsOk(first) && AllViewsOk(second)
    ensures AllViewsOk(first + second)
    ensures Fold(first + second, payload, w, env) ==
      (var (r, w1) := Fold(first, payload, w, env);
       if r.Failure? then (r, w1) else Fold(second, r.value, w1, env))
    decreases |first|
  {
    var all := first + second;
    assert AllViewsOk(all) by {
      forall i | 0 <= i < |all| ensures ViewOk(all[i]) {
        if i < |first| { assert all[i] == first[i]; } else { assert all[i] == second[i - |first|]; }
      }
    }
    if first == [] {
      assert all == second;
    } else {
      assert all[0] == first[0];
      assert all[1..] == first[1..] + second;
      var (r, w1) := Step(first[0], payload, w, env);
      if r.Success? {
        FoldAppend(first[1..], second, r.value, w1, env);
      }
    }
  }

  /** Piping one more stage adds one step after the earlier ones, run on their result. */
  lemma FoldSnoc(vs: seq<StageView>, v: StageView, payload: Value, w: World, env: Env)
    requires AllViewsOk(vs) && ViewOk(v)
    ensures AllViewsOk(vs + [v])
    ensures Fold(vs + [v], payload, w, env) ==
      (var (r, w1) := Fold(vs, payload, w, env);
       if r.Failure? then (r, w1) else Step(v, r.value, w1, env))
  {
    FoldAppend(vs, [v], payload, w, env);
    var (r, w1) := Fold(vs, payload, w, env);
    if r.Success? {
      assert [v][1..] == [];
    }
  }

  /** A test closure for `fn ($payload) => ($payload ?? 5) * 2`, defined on null and integers only; other operands fail here, unlike PHP's arithmetic. */
  function DoubleOrTen(v: Value): Result<Value, ProcessingException> {
    match v
    case Null => Success(Int(10))
    case Int(i) => Success(Int(2 * i))
    case _ => Failure(ProcessingException("Unsupported operand types"))
  }

  /** A test closure for `fn ($payload) => $payload + 1`, defined on integers only; other operands fail here, unlike PHP's arithmetic. */
  function PlusOne(v: Value): Result<Value, ProcessingException> {
    match v
    case Int(i) => Success(Int(i + 1))
    case _ => Failure(ProcessingException("Unsupported operand types"))
  }

  /** The payload starts as `null`: doubling-or-ten followed by plus-one yields (5 * 2) + 1, without touching the disk. */
  lemma TwoInvokablesCompose(w: World, env: Env)
    ensures AllViewsOk([InvokableView(DoubleOrTen), InvokableView(PlusOne)])
    ensures Fold([InvokableView(DoubleOrTen), InvokableView(PlusOne)], Null, w, env) == (Success(Int(11)), w)
  {
    var vs := [InvokableView(DoubleOrTen), InvokableView(PlusOne)];
    var rest := [InvokableView(PlusOne)];
    assert vs[1..] == rest && rest[1..] == [];
    assert Fold(rest, Int(10), w, env) == (Success(Int(11)), w);
    assert Step(vs[0], Null, w, env) == (Success(Int(10)), w);
  }

  /** A stage that fails is reported under the pipeline's prefix, and no later stage runs. */
  lemma FailingStageIsWrapped(run: Value -> Result<Value, ProcessingException>, rest: seq<StageView>, w: World, env: Env)
    requires AllViewsOk(rest)
    requires run(Null).Failure?
    ensures AllViewsOk([InvokableView(run)] + rest)
    ensures var (r, w') := Fold([InvokableView(run)] + rest, Null, w, env);
      Wrapped(r) == Failure(ProcessingException(ProcessingFailedMessage + run(Null).error.message)) && w' == w
  {
    var vs := [InvokableView(run)] + rest;
    assert vs[0] == InvokableView(run);
    assert AllViewsOk(vs) by {
      forall i | 0 <= i < |vs| ensures ViewOk(vs[i]) {
        if i > 0 { assert vs[i] == rest[i - 1]; }
      }
    }
  }

  /** The objects a stage consists of. */
  function ObjectsOf(st: Stage): set<object> {
    match st
    case ImageStep(i) => {i}
    case BrowserStep(b) => {b}
    case Invokable(_) => {}
  }

  /** The objects of all the stages. */
  function AllObjects(ss: seq<Stage>): (os: set<object>)
    ensures forall i :: 0 <= i < |ss| ==> ObjectsOf(ss[i]) <= os
    decreases |ss|
  {
    if ss == [] then {} else ObjectsOf(ss[0]) + AllObjects(ss[1..])
  }

  /** A stage as it stands. */
  function ViewOf(st: Stage): StageView
    reads ObjectsOf(st)
  {
    match st
    case ImageStep(i) => ImageView(i.Config())
    case BrowserStep(b) => BrowserView(b.Config(), b.instance)
    case Invokable(run) => InvokableView(run)
  }

  function ViewsOf(ss: seq<Stage>): (vs: seq<StageView>)
    reads AllObjects(ss)
    ensures |vs| == |ss|
    ensures forall i :: 0 <= i < |ss| ==> vs[i] == ViewOf(ss[i])
    decreases |ss|
  {
    if ss == [] then [] else [ViewOf(ss[0])] + ViewsOf(ss[1..])
  }

  /** No stage is a file system. */
  lemma {:induction false} NoFileSystemAmong(ss: seq<Stage>, fs: FileSystem)
    ensures fs !in AllObjects(ss)
    decreases |ss|
  {
    if ss != [] {
      NoFileSystemAmong(ss[1..], fs);
      match ss[0]
      case ImageStep(i) => assert fs as object != i as object;
      case BrowserStep(b) => assert fs as object != b as object;
      case Invokable(_) =>
    }
  }

  /** A piped browser stage keeps its option table well formed. */
  ghost predicate StageOk(st: Stage)
    reads ObjectsOf(st)
  {
    st.BrowserStep? ==> st.browser.Valid()
  }

  /** Invokes one stage on the payload: what `$stage($payload)` does, as `Step` describes it. */
  method RunStage(stage: Stage, payload: Value, fs: FileSystem, mode: FakeMode, backend: Imagick.Backend, renderer: BS.Renderer)
    returns (result: Result<Value, ProcessingException>)
    requires StageOk(stage)
    modifies fs
    ensures ViewOk(old(ViewOf(stage)))
    ensures (result, fs.State()) == Step(old(ViewOf(stage)), payload, old(fs.State()), Env(mode.isFake, backend, renderer))
  {
    match stage {
      case ImageStep(image) =>
        var out := image.Invoke(payload, fs, mode, backend);
        result := if out.Success? then Success(Str(out.value)) else Failure(out.error);
      case BrowserStep(browser) =>
        var out := browser.Invoke(payload, fs, mode, renderer);
        result := if out.Success? then Success(Str(out.value)) else Failure(out.error);
      case Invokable(run) =>
        result := run(payload);
    }
  }

  class TrmnlPipeline {
    var model: Option<DM.Model>
    var stages: seq<Stage>

    ghost predicate Valid()
      reads this, AllObjects(stages)
    {
      forall i :: 0 <= i < |stages| ==> StageOk(stages[i])
    }

    /** A new pipeline: no model and no stages. */
    constructor ()
      ensures model.None? && stages == []
    {
      model := None;
      stages := [];
    }

    /** `model()`: later `pipe` calls configure their stage from `m`; stages already piped are not reconfigured. */
    method SetModel(m: DM.Model)
      modifies this
      ensures model == Some(m) && stages == old(stages)
    {
      model := Some(m);
    }

    /** `getModel()`. */
    function GetModel(): (m: Option<DM.Model>)
      reads this
      ensures m == model
    {
      model
    }

    /**
     * `pipe()`: when a model is set, the library's stages are first configured
     * from it (an invokable without `configureFromModel` is not); if that
     * fails, the exception escapes and nothing is appended. Otherwise the
     * stage is appended after the earlier ones, which are unchanged.
     */
    method Pipe(stage: Stage, catalog: MD.Catalog) returns (r: Outcome<ProcessingException>)
      requires stage.BrowserStep? ==> stage.browser.Valid()
      modifies this, ObjectsOf(stage)
      ensures stage.BrowserStep? ==> stage.browser.Valid()
      ensures model == old(model)
      ensures r.Pass? ==> stages == old(stages) + [stage]
      ensures r.Fail? ==> stages == old(stages)
      ensures old(model).None? || stage.Invokable? ==> r.Pass? && unchanged(ObjectsOf(stage))
      ensures old(model).Some? && stage.ImageStep? ==>
        (r.Pass? <==> old(model).value.GetData(catalog).Success?)
        && (r.Pass? ==> stage.image.Config() == IS.Configured(old(stage.image.Config()), old(model).value.GetData(catalog).value))
        && (r.Fail? ==> stage.image.Config() == old(stage.image.Config()))
      ensures old(model).Some? && stage.BrowserStep? ==>
        (r.Pass? <==> BS.Configured(old(stage.browser.Config()), old(model).value, catalog).Success?)
        && (r.Pass? ==> stage.browser.Config() == BS.Configured(old(stage.browser.Config()), old(model).value, catalog).value)
        && (r.Fail? ==> stage.browser.Config() == old(stage.browser.Config()))
    {
      r := Pass;
      if model.Some? {
        match stage {
          case ImageStep(image) =>
            r := image.ConfigureFromModel(model.value, catalog);
          case BrowserStep(browser) =>
            r := browser.ConfigureFromModel(model.value, catalog);
          case Invokable(_) =>
        }
      }
      if r.Pass? {
        stages := stages + [stage];
      }
    }

    /**
     * `process()`: runs the stages in piped order on `null`, each on the
     * previous result, and reports the first failure under the pipeline's
     * prefix.
     */
    method Process(fs: FileSystem, mode: FakeMode, backend: Imagick.Backend, renderer: BS.Renderer)
      returns (r: Result<Value, ProcessingException>)
      requires Valid()
      modifies fs
      ensures AllViewsOk(old(ViewsOf(stages)))
      ensures var (result, w) := Fold(old(ViewsOf(stages)), Null, old(fs.State()), Env(mode.isFake, backend, renderer));
        r == Wrapped(result) && fs.State() == w
    {
      var env := Env(mode.isFake, backend, renderer);
      var views := ViewsOf(stages);
      assert AllViewsOk(views) by {
        forall i | 0 <= i < |views| ensures ViewOk(views[i]) {
          assert StageOk(stages[i]);
        }
      }
      NoFileSystemAmong(stages, fs);
      ghost var w0 := fs.State();
      var payload: Value := Null;
      var i := 0;
      while i < |stages|
        invariant 0 <= i <= |stages|
        invariant forall j :: i <= j < |stages| ==> views[j] == ViewOf(stages[j])
        invariant AllViewsOk(views[i..])
        invariant Fold(views, Null, w0, env) == Fold(views[i..], payload, fs.State(), env)
      {
        assert views[i..][0] == views[i] && views[i..][1..] == views[i + 1..];
        assert StageOk(stages[i]);
        ghost var before := fs.State();
        var result := RunStage(stages[i], payload, fs, mode, backend, renderer);
        assert Fold(views[i..], payload, before, env) ==
          (if result.Failure? then (result, fs.State()) else Fold(views[i + 1..], result.value, fs.State(), env));
        if result.Failure? {
          return Failure(ProcessingException(ProcessingFailedMessage + result.error.message));
        }
        payload := result.value;
        i := i + 1;
      }
      return Success(payload);
    }
  }
}

=== FILE: wrappers.dfy ===
/** Option, Result and Outcome: PHP's nullable values and thrown exceptions, as values. */
module Wrappers {

  /** A nullable value: `None` is PHP's `null`. */
  datatype Option<+T> = None | Some(value: T) {

    /** PHP's null-coalescing `$x ?? default`. */
    function GetOr(default: T): T {
      match this
      case Some(v) => v
      case None => default
    }
  }

  /** Either a value or the exception that a PHP call would throw. */
  datatype Result<+T, +E> = Success(value: T) | Failure(error: E) {

    predicate IsFailure() {
      Failure?
    }

    function PropagateFailure<U>(): Result<U, E>
      requires Failure?
    {
      Failure(error)
    }

    function Extract(): T
      requires Success?
    {
      value
    }
  }

  /** A call that returns nothing but may throw. */
  datatype Outcome<+E> = Pass | Fail(error: E)
}

/** The library's single exception class; only its message is observable. */
module Exceptions {

  datatype ProcessingException = ProcessingException(message: string)
}
